=== FILE: README.md ===
# react-movie in Dafny

A model of the logic inside the react-movie front end: a movie browser
that lists movies from the TMDB API, records how often each search term
was used in an Appwrite collection, shows the most searched terms as
"trending", and has a detail page that loads one movie, finds its
official YouTube trailer and measures the trailer's length with an
off-screen embedded player.

Every network or browser answer the code waits for — a `fetch` and its
`json()`, an Appwrite call, the YouTube player's events — is a parameter
of the model, given as a datatype of the possible outcomes
(`ListResponse`, `DetailResponse`, `VideosResponse`, `PlayerEvent`, the
`storeFails` flag). The rest is modelled as the source writes it:

- `Text` — the JavaScript built-ins the core relies on: `String(n)` for
  a natural number (with a parser as its inverse), `padStart(2, '0')`,
  `split` on one character and `join`.
- `Tmdb` — the list payload records, the two list endpoints, and the
  image-CDN rule `path ? IMAGE_BASE_URL + path : fallback`.
- `Trailer` — `fetchTrailer`: the first official YouTube trailer in the
  videos list, as a key plus a watch URL.
- `Duration` — the `M:SS` / `H:MM:SS` formatting in the player's ready
  handler, with a parser that reads it back.
- `IframeApi` — the memoised script loader (`ytApiReady`,
  `ytApiReadyCallbacks`, one script tag, one ready handler) as a class,
  and `fetchDurationFromIframe` as a method over the page body's
  containers and players.
- `MovieDetail` — the `useMovie` hook: `Outcome` says where one run of
  the effect ends for each mix of answers, and the `DetailHook` class
  runs the effect, its cleanup and a change of `movieId`.
- `SearchCounts` — the Appwrite collection as a `Store` class holding a
  sequence of documents: `updateSearchCount` as an upsert counter and
  `getTrendingMovies` as the five documents with the highest counts.
- `MoviesSearch` — the `useMovies` hook as the `MoviesHook` class.
- `App` — the top-level page's own `fetchMovie` and `loadTrendingMovies`,
  a second version of the search flow, with different rules.
- `MoviePage`, `MovieCard`, `MovieList` — the values the pages and
  components derive from state: runtime text, year, image sources,
  status capitalisation, homepage check, joined names, trailer link and
  the spinner / error / list decisions.

Five behaviours of the code are easy to misread; the model keeps them as the code has them:

- When the player constructor throws, or the player never answers, the
  hidden container stays attached to the page: only the ready and error
  handlers remove it. A player that never answers also leaves the detail
  load waiting with `isLoading` raised.
- `loadTrendingMovies` cannot reach its own `catch`, because
  `getTrendingMovies` catches every store error and returns `[]`; a
  failing store therefore empties the trending list.
- The top-level page asks for `sort_by=popularity_desc` (underscore),
  the hook for `sort_by=popularity.desc`.
- A failed first detail load leaves `movie` empty, so the page keeps
  showing the spinner and never shows the error.
- On the top-level page, an ordinary payload without `results` for an
  empty query leaves the list `undefined`; nothing reads it until the
  "All Movies" section maps over it, and that render throws.

## Model

| member | source | states |
|---|---|---|
| Text.NatToString | src/hooks/useMovie.js:56-61 | `String(n)`: at least one decimal digit, one digit exactly below 10, a leading `0` only for 0 |
| Text.ParseNatToString | src/hooks/useMovie.js:56-61 | reading the rendering of `n` back gives `n` |
| Text.NatToStringInjective | src/hooks/useMovie.js:56-61 | different numbers render differently |
| Text.PadStart2 | src/hooks/useMovie.js:57-61 | `padStart(2, '0')`: length is 2 or the input's length, the input is the suffix, zeros before it |
| Text.PaddedReadsBack | src/hooks/useMovie.js:57-61 | a number below 100 padded to two digits reads back as itself |
| Text.Split | src/components/MovieCard.jsx:23 | `split`: at least one piece, and no piece contains the separator |
| Text.SplitNoSeparator | src/components/MovieCard.jsx:23 | a text without the separator splits into itself |
| Text.SplitAtFirst | src/components/MovieCard.jsx:23 | splitting stops at the first separator |
| Text.SplitFirstPiece | src/components/MovieCard.jsx:23 | the first piece is the longest prefix free of the separator |
| Text.SplitJoin | src/pages/MoviePage.jsx:172-174 | splitting undoes joining when no piece holds the separator |
| Text.Join | src/pages/MoviePage.jsx:172-174 | `join`: the empty text for no pieces, the piece itself for one; longer lists are fixed by `Text.JoinAppend`, `Text.JoinLength` and `Text.SplitJoin` |
| Text.JoinAppend | src/pages/MoviePage.jsx:172-174 | the join of a concatenation is the two joins with one separator between them |
| Text.JoinLength | src/pages/MoviePage.jsx:172-174 | the joined length is the pieces' total plus one separator per gap |
| Tmdb.Url | src/hooks/useMovies.js:29-31 | the search path followed by the encoded query, then `&sort_by=` and the order when a sort is given; the discover path followed by the order |
| Tmdb.ImageSrc | src/components/MovieCard.jsx:20-22 | a truthy path gives the CDN base followed by the path, otherwise the fallback |
| Tmdb.ImageSrcRecoversPath | src/components/MovieCard.jsx:20-22 | with a fallback that is not a CDN URL, equal image sources mean equal paths |
| Trailer.IsOfficialTrailer | src/hooks/useMovie.js:96-99 | the `find` test: site `YouTube`, type `Trailer` and name `Official Trailer`, all three |
| Trailer.FirstOfficialTrailer | src/hooks/useMovie.js:95-100 | the position `find` stops at: an official trailer with none before it, or none in the list |
| Trailer.SelectTrailer | src/hooks/useMovie.js:95-106 | none exactly when no entry matches; otherwise the first match's key, its watch URL, no duration fields |
| Trailer.WatchUrlNamesKey | src/hooks/useMovie.js:103-106 | the key is read back off the watch URL |
| Trailer.SelectionIgnoresOthers | src/hooks/useMovie.js:95-100 | entries after the first official trailer, and non-matching ones before it, do not change the choice |
| Trailer.FetchTrailer | src/hooks/useMovie.js:83-107 | a non-ok response fails with the fixed message, a rejection with its own; an ok response never fails and yields `SelectTrailer` of its results, a trailer exactly when one matches |
| Duration.FormatDuration | src/hooks/useMovie.js:53-61 | `M:SS` below an hour and `H:MM:SS` from an hour on; read back without loss by `Duration.FormatDurationRoundTrip` |
| Duration.MinutesFields | src/hooks/useMovie.js:61 | without hours the text splits at `:` into the minutes and the two-digit seconds |
| Duration.HoursFields | src/hooks/useMovie.js:56-60 | with hours the text splits at `:` into hours, two-digit minutes and two-digit seconds |
| Duration.ClockTextReadBack | src/hooks/useMovie.js:56-61 | any clock text with minutes and seconds below 60 reads back as its number of seconds |
| Duration.ClockArithmetic | src/hooks/useMovie.js:53-55 | the three clock fields add back up to the total; minutes and seconds are below 60; the hour count is 0 exactly below 3600 |
| Duration.DurationFields | src/hooks/useMovie.js:53-61 | two fields below an hour, three from an hour on; the leading one unpadded, the others two digits holding minutes and seconds |
| Duration.FormatDurationRoundTrip | src/hooks/useMovie.js:53-61 | reading the formatted text back gives the seconds |
| Duration.FormatDurationInjective | src/hooks/useMovie.js:53-61 | different lengths never format alike |
| Duration.FormatDurationExamples | src/hooks/useMovie.js:53-61 | 45 gives `0:45`, 125 gives `2:05`, 3725 gives `1:02:05` |
| IframeApi.ApiLoader.constructor | src/hooks/useMovie.js:7-8 | nothing memoised, no queued resolver, no tag appended |
| IframeApi.ApiLoader.Load | src/hooks/useMovie.js:10-33 | resolved at once when the API exists; the same promise while one is pending; otherwise a new promise with its resolver queued, and a script tag with id `youtube-iframe-api` and the API's `src` plus the ready handler only when no element has that id |
| IframeApi.ApiLoader.ScriptLoaded | src/hooks/useMovie.js:25-28 | the installed handler resolves every queued resolver once, in order, and empties the queue |
| IframeApi.TwoCallersShareOneLoad | src/hooks/useMovie.js:10-33 | two calls before the script arrives get the same promise, which the one load resolves |
| IframeApi.PageBody.constructor | src/hooks/useMovie.js:41-45 | the part of `document.body` the measurement touches starts with no hidden containers and no players |
| IframeApi.MeasureDuration | src/hooks/useMovie.js:36-80 | ready resolves with the seconds and their formatted text; ready and error destroy the player and remove the container; a throwing constructor rejects and leaves one container attached; a player that never answers stays pending with its player and container attached |
| MovieDetail.WithDuration | src/hooks/useMovie.js:138-146 | on ready both duration fields are set from the reported seconds; otherwise the trailer is unchanged |
| MovieDetail.Outcome | src/hooks/useMovie.js:114-157 | where one run ends: aborted exactly for an aborted detail request; a non-ok detail or videos response fails with its fixed message, a rejected one with its own; loaded only with both requests ok, as the fetched payload with at most `video` replaced by the selected trailer; hanging exactly when a trailer was found and its measurement never settles |
| MovieDetail.AbortIsNotAnError | src/hooks/useMovie.js:153-154 | an aborted detail request neither fails nor loads |
| MovieDetail.VideosFailureFailsLoad | src/hooks/useMovie.js:134-154 | a failed videos request fails the whole load, with the fixed message for a non-ok status |
| MovieDetail.NoTrailerStillLoads | src/hooks/useMovie.js:134-152 | without an official trailer the detail loads as fetched |
| MovieDetail.DurationFailureSwallowed | src/hooks/useMovie.js:136-148 | a rejected measurement still attaches the trailer, without duration fields; a player that never answers leaves the run hanging |
| MovieDetail.DurationAttached | src/hooks/useMovie.js:136-148 | on ready the attached trailer carries the seconds and their formatted text; the rest of the payload is as fetched |
| MovieDetail.DetailHook.constructor | src/hooks/useMovie.js:109-112 | no movie, not loading, no error |
| MovieDetail.DetailHook.Effect | src/hooks/useMovie.js:114-160 | a falsy id changes nothing; otherwise a newly made controller (one more made than before), not aborted, `movie` and `error` as `Outcome` says, loading left raised only by an await that never resumes; the page body keeps an extra container only when the constructor threw or the player never answered, and an extra player only in the latter case |
| MovieDetail.DetailHook.Cleanup | src/hooks/useMovie.js:162 | the mounted controller is aborted and nothing else changes |
| MovieDetail.DetailHook.Navigate | src/hooks/useMovie.js:162-163 | a different id aborts the previous controller first |
| SearchCounts.PosterUrl | src/appwrite.js:30 | the CDN base followed by the poster path as a template literal prints it, `null` when absent |
| SearchCounts.FirstWithTerm | src/appwrite.js:14-20 | the first document with the term, or none has it |
| SearchCounts.Upserted | src/appwrite.js:14-31 | the collection after one recorded search: the first document with the term counts one more, or a new document is appended; pinned down by `SearchCounts.UpsertExisting` and `SearchCounts.UpsertFresh` |
| SearchCounts.NewDocument | src/appwrite.js:26-31 | the document a first search creates: the term, count 1, the movie's id and its poster URL; appended by `SearchCounts.UpsertFresh` |
| SearchCounts.UpsertExisting | src/appwrite.js:18-23 | the first document with the term counts one more; nothing else changes; nothing is created |
| SearchCounts.UpsertFresh | src/appwrite.js:24-31 | without one, exactly one document is added: count 1, the movie's id and poster URL |
| SearchCounts.RecordingCountsOnce | src/appwrite.js:11-36 | a recording adds one to the term's total and leaves every other term's total |
| SearchCounts.UpsertKeepsTermsUnique | src/appwrite.js:11-36 | at most one document per term is preserved |
| SearchCounts.TwoSearchesForFreshTerm | src/appwrite.js:18-31 | two searches for a new term leave one document counting 2 with the first movie's id and poster |
| SearchCounts.InsertByCount | src/appwrite.js:40-43 | one longer, headed by the larger count |
| SearchCounts.InsertByCountSorted | src/appwrite.js:40-43 | inserting into a list ordered by count keeps it ordered |
| SearchCounts.InsertByCountPermutes | src/appwrite.js:40-43 | inserting adds exactly that document |
| SearchCounts.SortByCount | src/appwrite.js:40-43 | the ordering keeps the number of documents |
| SearchCounts.SortByCountSorted | src/appwrite.js:40-43 | the ordering is non-increasing by count |
| SearchCounts.SortByCountPermutes | src/appwrite.js:40-43 | the ordering is a permutation of the collection |
| SearchCounts.PrefixDominates | src/appwrite.js:40-45 | a prefix of an ordering by count outranks the rest |
| SearchCounts.TopByCount | src/appwrite.js:40-43 | the ordered, limited query: the first `limit` documents of the ordering by count; its properties are `SearchCounts.TopByCountIsTop` |
| SearchCounts.TopByCountIsTop | src/appwrite.js:38-50 | `min(5, n)` documents of the collection, highest first, none left out counting more than one returned |
| SearchCounts.Store.FindTerm | src/appwrite.js:14-20 | the first document with the term, or none has it |
| SearchCounts.Store.UpdateSearchCount | src/appwrite.js:11-36 | a failing store leaves the collection; otherwise the collection becomes the upsert |
| SearchCounts.Store.GetTrendingMovies | src/appwrite.js:38-50 | `[]` on failure; otherwise the top five by count, ordered, drawn from the collection, outranking the rest |
| MoviesSearch.SearchEndpoint | src/hooks/useMovies.js:29-31 | search with the query and no sort exactly for a non-empty query; otherwise discover by `popularity.desc` |
| MoviesSearch.Classify | src/hooks/useMovies.js:38-58 | movies listed exactly for an ok response with results, and then exactly those results; non-ok and missing or empty results fail with their fixed messages, any other rejection with its own message; abort is neither |
| MoviesSearch.RecordsSearch | src/hooks/useMovies.js:51-53 | the hook records a search exactly for a non-empty query whose request listed movies |
| MoviesSearch.MoviesHook.constructor | src/hooks/useMovies.js:15-18 | no movies, not loading, no error |
| MoviesSearch.MoviesHook.Effect | src/hooks/useMovies.js:20-67 | a fresh controller; listed movies replace `movies`, a failure sets `error` and keeps them, an abort sets neither; loading ends; a non-empty listed query is recorded with the first movie |
| MoviesSearch.MoviesHook.Cleanup | src/hooks/useMovies.js:70-72 | the mounted controller is aborted and nothing else changes |
| MoviesSearch.MoviesHook.ChangeQuery | src/hooks/useMovies.js:70-73 | a different query aborts the previous controller first |
| App.AppEndpoint | src/App.jsx:34-38 | search newest first exactly for a non-empty query; otherwise discover by `popularity_desc` |
| App.EndpointsDiffer | src/App.jsx:34-38 | the page and the hook choose the same kind of endpoint but never the same URL |
| App.ApiErrorMessage | src/App.jsx:46-47 | the payload's `Error` when truthy, else the default; never empty |
| App.RecordsSearch | src/App.jsx:54-55 | the page records a search exactly for a non-empty query and an ordinary payload with at least one result |
| App.RecordingRulesAgree | src/App.jsx:54-55 | on payloads without the error marker the page and the hook record the same searches with the same first movie |
| App.IsApiError | src/App.jsx:46 | the provider's error payload: `Response` is the text `False` |
| App.ReadsMissingResults | src/App.jsx:52-54 | the `results.length` read throws exactly for a non-empty query and a payload without `results` |
| App.AllMoviesView | src/App.jsx:114-124 | spinner exactly while loading, else the error text exactly when set, else the list's cards; a throwing render exactly when the list is `undefined` |
| App.MissingResultsScenario | src/App.jsx:50-55 | a first search with an ordinary payload lacking `results` shows the fixed message for a query, and a throwing render without one |
| App.AppState.constructor | src/App.jsx:23-26 | no error, empty list, not loading, no trending |
| App.AppState.FetchMovie | src/App.jsx:31-62 | non-ok or rejection shows the fixed message; an error payload shows its message and empties the list; otherwise the list becomes `results`; the message is never cleared; loading ends |
| App.AppState.LoadTrendingMovies | src/App.jsx:64-72 | the trending list becomes the store's top five, or `[]` when the store fails |
| MoviePage.View | src/pages/MoviePage.jsx:13-72 | spinner exactly while loading or without a movie, else the error exactly when set, else the details |
| MoviePage.FailedFirstLoadShowsSpinner | src/pages/MoviePage.jsx:21-27 | a fresh detail hook whose first run fails holds the failure's message, yet the page shows the spinner |
| MoviePage.RuntimeText | src/pages/MoviePage.jsx:51-52 | `<hours> hr <minutes> min` of a runtime in minutes; read back without loss by `MoviePage.RuntimeTextRoundTrip` |
| MoviePage.HoursAndMinutesFields | src/pages/MoviePage.jsx:51-52 | the runtime text splits on spaces into hours, `hr`, minutes, `min` |
| MoviePage.HoursAndMinutesReadBack | src/pages/MoviePage.jsx:51-52 | an hours-and-minutes text reads back as its minutes exactly when the minutes are below 60 |
| MoviePage.RuntimeTextRoundTrip | src/pages/MoviePage.jsx:51-52 | reading the runtime text back, with minutes below 60 demanded, gives the runtime, so its fields are the whole hours and the remaining minutes |
| MoviePage.ReleaseYear | src/pages/MoviePage.jsx:79 | `N/A` for a falsy date; otherwise the prefix of the date that is four characters long, or all of a shorter date |
| MoviePage.ReleaseYearMatchesCard | src/pages/MoviePage.jsx:79 | for a `YYYY-MM-DD` date the page and the card both show `YYYY` |
| MoviePage.PageImage | src/pages/MoviePage.jsx:107-123 | CDN URL of a truthy path, else the placeholder |
| MoviePage.PageImageFaithful | src/pages/MoviePage.jsx:107-123 | equal sources mean the same path, or both missing |
| MoviePage.UpperAscii | src/pages/MoviePage.jsx:180 | lower-case ASCII letters map to upper case; everything else is kept |
| MoviePage.Capitalize | src/pages/MoviePage.jsx:180 | same length; first character upper-cased, the rest unchanged |
| MoviePage.CapitalizeIdempotent | src/pages/MoviePage.jsx:180 | capitalizing twice is capitalizing once |
| MoviePage.SchemePattern | src/pages/MoviePage.jsx:222 | the test `/^https?:\/\//` read as the pattern reads; equal to the prefix test by `MoviePage.SchemePatternIsPrefixTest` |
| MoviePage.SchemePatternIsPrefixTest | src/pages/MoviePage.jsx:222 | the pattern holds exactly of texts starting `http://` or `https://` |
| MoviePage.HomepageHref | src/pages/MoviePage.jsx:220-225 | an href exactly for a homepage starting `http://` or `https://`, and then the homepage itself |
| MoviePage.Names | src/pages/MoviePage.jsx:172-174 | the names, one per item, in input order |
| MoviePage.NamesAppend | src/pages/MoviePage.jsx:172-174 | names of a concatenation are the concatenated names |
| MoviePage.JoinNames | src/pages/MoviePage.jsx:172-174 | the names joined by ` • `; kept in order by `MoviePage.JoinNamesInOrder` |
| MoviePage.JoinNamesInOrder | src/pages/MoviePage.jsx:172-174 | joined names keep input order with one ` • ` between neighbours; no names join to the empty text |
| MoviePage.TrailerLink | src/pages/MoviePage.jsx:127-138 | a link exactly when the trailer has a formatted duration, pointing at its URL |
| MoviePage.TrailerLinkAfterLoad | src/pages/MoviePage.jsx:127-138 | a load with a trailer completes unless the player never answers; then the link appears exactly when the player reported a length, and points at the watch URL |
| MoviePage.MoneyShown | src/pages/MoviePage.jsx:194-205 | `N/A` exactly for an amount at most 0 |
| MoviePage.VoteCountTier | src/pages/MoviePage.jsx:54-59 | `M` tier from a million, `k` tier from a thousand, otherwise the raw count |
| MovieCard.CardImage | src/components/MovieCard.jsx:20-22 | CDN URL of a truthy poster path, else `/no-movie.png` |
| MovieCard.CardImageFaithful | src/components/MovieCard.jsx:20-22 | equal images mean the same poster path, or both missing |
| MovieCard.CardYear | src/components/MovieCard.jsx:23 | `N/A` for a falsy date; otherwise the prefix before the first `-` |
| MovieCard.CardYearOfIsoDate | src/components/MovieCard.jsx:23 | `YYYY-MM-DD` shows `YYYY` |
| MovieCard.CardRating | src/components/MovieCard.jsx:24 | `NA` exactly for an absent or zero average |
| MovieCard.CardLink | src/components/MovieCard.jsx:28 | the link target: `/` followed by the movie id; read back by `MovieCard.CardLinkRoundTrip` |
| MovieCard.CardLinkRoundTrip | src/components/MovieCard.jsx:28 | the link target reads back as the movie id |
| MovieList.HeadingText | src/components/MovieList.jsx:10 | `Results for "<term>"` for a search, else `Popular Movies`; the term is read back by `MovieList.HeadingNamesTerm` |
| MovieList.HasMovies | src/components/MovieList.jsx:5 | whether the list holds at least one movie |
| MovieList.ListSection | src/components/MovieList.jsx:5-24 | heading exactly when loading, erring or holding movies; spinner, error and grid under their conditions |
| MovieList.SectionExclusive | src/components/MovieList.jsx:9-24 | at most one of spinner, error and grid; the heading exactly when one is shown |
| MovieList.HeadingNamesTerm | src/components/MovieList.jsx:10 | a search heading quotes the term and differs from the popular heading |

## Left out

- Network, store and player I/O: `fetch`, `json()`, the Appwrite client and the YouTube player are outcome parameters; request headers, the API key and environment variables are not modelled.
- Concurrency: overlapping requests, a stale request's `finally` lowering `isLoading` for a newer one, and the read-then-write race in `updateSearchCount`. Each effect run is modelled as one sequential step; abort is an outcome plus the set of aborted controllers.
- `useDebounce` in src/App.jsx:29 is a library timer; the model takes the debounced query as given.
- `encodeURIComponent` is an opaque function parameter of `Tmdb.Url`.
- Floating point: `toFixed` on ratings, popularity, vote counts, budget and revenue, and `toLocaleDateString`. `MoviePage.MoneyShown`, `MoviePage.VoteCountTier` and `MovieCard.CardRating` model only which branch is taken, not the text; NaN averages are not modelled.
- SearchCounts.PosterUrl: an absent path is modelled as `null`, printed `null`; a payload that lacks the `poster_path` key altogether prints `undefined`, which the model does not distinguish.
- MeasureDuration: `getDuration()` is taken as whole seconds; fractional durations are not modelled.
- MoviePage.UpperAscii: `toUpperCase` is modelled for ASCII letters only.
- MovieDetail.DetailHook.Effect: the loader and the measurement are not composed into one method; `Measurement.ApiNeverReady` stands for a loader whose promise never resolves.
- MoviePage.TrailerLink: when a movie has no `video` the page's `video.durationFormatted` throws during rendering; the model shows no link instead.
- Trailer.FetchTrailer: a videos payload without `results` (a `TypeError` in `find`) is not modelled.
- MoviePage.RuntimeTextRoundTrip: `runtime` is a natural number; a missing or null runtime is not modelled.
- SearchCounts.TopByCountIsTop: the order among documents with equal counts is the store's choice; the model keeps creation order.
- src/pages/Home.jsx and src/components/Badge.jsx are not part of this model: they are markup and wiring around the modelled hooks; so are JSX structure, routing and console logging.

=== FILE: app.dfy ===
/** The top-level page's own search flow (`fetchMovie`) and trending
    list (`loadTrendingMovies`), a second version of the search flow. */
module App {
  import opened Wrappers
  import opened Tmdb
  import opened SearchCounts
  import MoviesSearch

  const APP_FETCH_ERROR: string := "Error fetching movies, please try again later."
  const API_ERROR_DEFAULT: string := "Failed to fetch movies"
  const SEARCH_ORDER: string := "primary_release_date.desc"
  /** Spelled with an underscore in the source, unlike the hook's order. */
  const DISCOVER_ORDER: string := "popularity_desc"

  /** A non-empty query searches newest first; an empty one discovers. */
  function AppEndpoint(query: string): (e: Endpoint)
    ensures e.Search? <==> query != ""
    ensures e.Search? ==> e.query == query && e.sortBy == Some(SEARCH_ORDER)
    ensures e.Discover? ==> e.order == DISCOVER_ORDER
  {
    if query != "" then Search(query, Some(SEARCH_ORDER)) else Discover(DISCOVER_ORDER)
  }

  /** The two versions pick the same kind of endpoint for every query but
      never the same URL: the search adds a sort here, and the discover
      order is spelled differently. */
  lemma EndpointsDiffer(query: string, encode: string -> string)
    ensures AppEndpoint(query).Search? == MoviesSearch.SearchEndpoint(query).Search?
    ensures Url(AppEndpoint(query), encode) != Url(MoviesSearch.SearchEndpoint(query), encode)
  {
    var a, h := Url(AppEndpoint(query), encode), Url(MoviesSearch.SearchEndpoint(query), encode);
    if query != "" {
      var prefix := API_BASE_URL + "/search/movie?query=" + encode(query);
      assert h == prefix;
      assert a == prefix + "&sort_by=" + SEARCH_ORDER;
      assert |a| > |h|;
    } else {
      var prefix := API_BASE_URL + "/discover/movie?sort_by=";
      assert a == prefix + DISCOVER_ORDER && h == prefix + MoviesSearch.DISCOVER_ORDER;
      assert a[|prefix| + 10] != h[|prefix| + 10];
    }
  }

  /** `data.Response === "False"`: the provider's error payload. */
  predicate IsApiError(payload: ListPayload) {
    payload.response == Some("False")
  }

  /** The message an error payload shows: its `Error`, or a default when
      that is absent or empty. Never empty. */
  function ApiErrorMessage(payload: ListPayload): (msg: string)
    ensures msg != ""
    ensures Truthy(payload.error) ==> msg == payload.error.value
    ensures !Truthy(payload.error) ==> msg == API_ERROR_DEFAULT
  {
    if Truthy(payload.error) then payload.error.value else API_ERROR_DEFAULT
  }

  /** Reading `data.results.length` throws when `results` is absent; the
      read happens only for a non-empty query. */
  predicate ReadsMissingResults(query: string, payload: ListPayload) {
    query != "" && payload.results.None?
  }

  /** The search is recorded exactly when the query is non-empty and an
      ordinary payload holds at least one result. */
  predicate RecordsSearch(query: string, response: ListResponse) {
    && query != "" && response.ListOk? && !IsApiError(response.payload)
    && response.payload.results.Some? && |response.payload.results.value| > 0
  }

  /** On responses without the error marker both versions record the same
      searches, with the same first result. */
  lemma RecordingRulesAgree(query: string, response: ListResponse)
    requires !(response.ListOk? && IsApiError(response.payload))
    ensures RecordsSearch(query, response) <==> MoviesSearch.RecordsSearch(query, response)
    ensures RecordsSearch(query, response) ==>
      response.payload.results.value[0] == MoviesSearch.Classify(response).movies[0]
  {
  }

  /** The "All Movies" section: spinner, else the error, else the list.
      `RenderThrows` is the render that calls `map` on the `undefined`
      list a payload without results leaves. */
  datatype View = Spinner | ErrorText(message: string) | MovieGrid(movies: seq<MovieSummary>) | RenderThrows

  function AllMoviesView(isLoading: bool, errorMessage: string, movieList: Option<seq<MovieSummary>>): (v: View)
    ensures v.Spinner? <==> isLoading
    ensures v.ErrorText? <==> !isLoading && errorMessage != ""
    ensures v.ErrorText? ==> v.message == errorMessage
    ensures v.RenderThrows? <==> !isLoading && errorMessage == "" && movieList.None?
    ensures v.MovieGrid? ==> movieList == Some(v.movies)
  {
    if isLoading then Spinner
    else if errorMessage != "" then ErrorText(errorMessage)
    else if movieList.None? then RenderThrows
    else MovieGrid(movieList.value)
  }

  class AppState {
    var errorMessage: string
    var movieList: Option<seq<MovieSummary>>
    var isLoading: bool
    var trendingMovies: seq<Document>

    constructor ()
      ensures errorMessage == "" && movieList == Some([]) && !isLoading && trendingMovies == []
    {
      errorMessage := "";
      movieList := Some([]);
      isLoading := false;
      trendingMovies := [];
    }

    /** `fetchMovie(query)` for the response to `AppEndpoint(query)`. A
        non-ok status or a rejection shows the fixed message and keeps the
        list; an error payload shows its message and empties the list; an
        ordinary payload replaces the list by its results, even when empty,
        and records a non-empty search. The message is never cleared and
        loading ends on every path. */
    method FetchMovie(query: string, response: ListResponse, store: Store, storeFails: bool)
      modifies this, store
      ensures !isLoading && trendingMovies == old(trendingMovies)
      ensures !response.ListOk? ==> errorMessage == APP_FETCH_ERROR && movieList == old(movieList)
      ensures response.ListOk? && IsApiError(response.payload) ==>
        errorMessage == ApiErrorMessage(response.payload) && movieList == Some([])
      ensures response.ListOk? && !IsApiError(response.payload) ==>
        && movieList == response.payload.results
        && errorMessage == (if ReadsMissingResults(query, response.payload) then APP_FETCH_ERROR else old(errorMessage))
      ensures RecordsSearch(query, response) && !storeFails ==>
        store.documents == Upserted(old(store.documents), query, response.payload.results.value[0], old(store.nextId))
      ensures !RecordsSearch(query, response) || storeFails ==> store.documents == old(store.documents)
      ensures old(errorMessage) != "" ==> errorMessage != ""
      ensures old(errorMessage) != "" ==> AllMoviesView(isLoading, errorMessage, movieList).ErrorText?
    {
      isLoading := true;
      match response {
        case ListNotOk =>
          errorMessage := APP_FETCH_ERROR;
        case ListAborted =>
          errorMessage := APP_FETCH_ERROR;
        case ListThrown(_) =>
          errorMessage := APP_FETCH_ERROR;
        case ListOk(payload) =>
          if IsApiError(payload) {
            errorMessage := ApiErrorMessage(payload);
            movieList := Some([]);
          } else {
            movieList := payload.results;
            if query != "" {
              if payload.results.None? {
                errorMessage := APP_FETCH_ERROR;
              } else if |payload.results.value| > 0 {
                store.UpdateSearchCount(query, payload.results.value[0], storeFails);
              }
            }
          }
      }
      isLoading := false;
    }

    /** `loadTrendingMovies()`: the list is replaced by what the store's
        query returns. That query swallows its own errors and returns an
        empty list, so a failing store empties the trending list. */
    method LoadTrendingMovies(store: Store, storeFails: bool)
      modifies this
      ensures trendingMovies == (if storeFails then [] else TopByCount(store.documents, TRENDING_LIMIT))
      ensures errorMessage == old(errorMessage) && movieList == old(movieList) && isLoading == old(isLoading)
    {
      trendingMovies := store.GetTrendingMovies(storeFails);
    }
  }

  /** A first search whose ordinary payload has no `results`: with a query
      the length read throws and the fixed message shows; without one
      nothing reads the list, and rendering it throws. */
  method MissingResultsScenario(query: string, payload: ListPayload) returns (v: View)
    requires !IsApiError(payload) && payload.results.None?
    ensures query != "" ==> v == ErrorText(APP_FETCH_ERROR)
    ensures query == "" ==> v == RenderThrows
  {
    var app := new AppState();
    var store := new Store();
    app.FetchMovie(query, ListOk(payload), store, false);
    v := AllMoviesView(app.isLoading, app.errorMessage, app.movieList);
  }
}

=== FILE: duration.dfy ===
/** Formatting of a trailer's length, as the off-screen player's ready
    handler does it (`M:SS` below an hour, `H:MM:SS` from an hour on),
    with the parser that reads such a text back. */
module Duration {
  import opened Wrappers
  import opened Text

  /** Whole seconds to `M:SS` when the hour count is zero, else `H:MM:SS`. */
  function FormatDuration(secs: nat): string
  {
    ClockText(secs / 3600, (secs % 3600) / 60, secs % 60)
  }

  /** The text of a clock reading: seconds always take two digits; minutes
      are padded only when there is an hour field. */
  function ClockText(h: nat, m: nat, s: nat): string
  {
    if h != 0 then NatToString(h) + ":" + PadStart2(NatToString(m)) + ":" + PadStart2(NatToString(s))
    else NatToString(m) + ":" + PadStart2(NatToString(s))
  }

  /** Reads `M:SS` (seconds below 60) or `H:MM:SS` (hours at least 1,
      minutes and seconds below 60, both two digits) back into seconds. */
  function ParseDuration(t: string): Option<nat> {
    ParseClock(Split(t, ':'))
  }

  /** The value of the colon-separated fields of a duration text. */
  function ParseClock(parts: seq<string>): Option<nat> {
    if |parts| == 2 then
      var m := ParseNat(parts[0]);
      var s := ParseNat(parts[1]);
      if m.Some? && s.Some? && |parts[1]| == 2 && s.value < 60
      then Some(m.value * 60 + s.value) else None
    else if |parts| == 3 then
      var h := ParseNat(parts[0]);
      var m := ParseNat(parts[1]);
      var s := ParseNat(parts[2]);
      if h.Some? && m.Some? && s.Some? && h.value >= 1
         && |parts[1]| == 2 && |parts[2]| == 2 && m.value < 60 && s.value < 60
      then Some(h.value * 3600 + m.value * 60 + s.value) else None
    else None
  }

  lemma SplitTwoFields(a: string, b: string)
    requires ':' !in a && ':' !in b
    ensures Split(a + ":" + b, ':') == [a, b]
  {
    SplitNoSeparator(b, ':');
    SplitAtFirst(a, ':', b);
  }

  lemma SplitThreeFields(a: string, b: string, c: string)
    requires ':' !in a && ':' !in b && ':' !in c
    ensures Split(a + ":" + b + ":" + c, ':') == [a, b, c]
  {
    SplitTwoFields(b, c);
    assert a + ":" + b + ":" + c == a + [':'] + (b + ":" + c);
    SplitAtFirst(a, ':', b + ":" + c);
  }

  /** A clock field below 60 renders as two digits that read back as it. */
  lemma ClockField(n: nat)
    requires n < 60
    ensures var f := PadStart2(NatToString(n));
      |f| == 2 && ParseNat(f) == Some(n) && ':' !in f
  {
    PaddedReadsBack(n);
    DigitsHaveNo(PadStart2(NatToString(n)), ':');
  }

  /** Without hours the text has the fields `<m>` and `<ss>`. */
  lemma MinutesFields(m: nat, s: nat)
    requires s < 60
    ensures Split(ClockText(0, m, s), ':') == [NatToString(m), PadStart2(NatToString(s))]
  {
    ClockField(s);
    DigitsHaveNo(NatToString(m), ':');
    SplitTwoFields(NatToString(m), PadStart2(NatToString(s)));
  }

  /** With hours the text has the fields `<h>`, `<mm>` and `<ss>`. */
  lemma HoursFields(h: nat, m: nat, s: nat)
    requires h != 0 && m < 60 && s < 60
    ensures Split(ClockText(h, m, s), ':') == [NatToString(h), PadStart2(NatToString(m)), PadStart2(NatToString(s))]
  {
    ClockField(m);
    ClockField(s);
    DigitsHaveNo(NatToString(h), ':');
    SplitThreeFields(NatToString(h), PadStart2(NatToString(m)), PadStart2(NatToString(s)));
  }

  /** The fields `<m>` and `<ss>` read back as `m` minutes and `s` seconds. */
  lemma MinutesReadBack(m: nat, s: nat)
    requires s < 60
    ensures ParseClock([NatToString(m), PadStart2(NatToString(s))]) == Some(m * 60 + s)
  {
    ClockField(s);
    ParseNatToString(m);
    ClockTwo([NatToString(m), PadStart2(NatToString(s))], m, s);
  }

  /** The fields `<h>`, `<mm>` and `<ss>` read back as that clock time. */
  lemma HoursReadBack(h: nat, m: nat, s: nat)
    requires h >= 1 && m < 60 && s < 60
    ensures ParseClock([NatToString(h), PadStart2(NatToString(m)), PadStart2(NatToString(s))])
      == Some(h * 3600 + m * 60 + s)
  {
    ClockField(m);
    ClockField(s);
    ParseNatToString(h);
    ClockThree([NatToString(h), PadStart2(NatToString(m)), PadStart2(NatToString(s))], h, m, s);
  }

  /** Any clock reading with minutes and seconds below 60 reads back as its
      number of seconds. */
  lemma ClockTextReadBack(h: nat, m: nat, s: nat)
    requires m < 60 && s < 60
    ensures ParseDuration(ClockText(h, m, s)) == Some(h * 3600 + m * 60 + s)
  {
    if h == 0 {
      MinutesFields(m, s);
      MinutesReadBack(m, s);
    } else {
      HoursFields(h, m, s);
      HoursReadBack(h, m, s);
    }
  }

  /** Hours, minutes and seconds of the clock add back up to the total. */
  lemma ClockArithmetic(secs: nat)
    ensures secs / 3600 * 3600 + secs % 3600 / 60 * 60 + secs % 60 == secs
    ensures secs % 3600 / 60 < 60 && secs % 60 < 60
    ensures secs / 3600 == 0 <==> secs < 3600
    ensures secs < 3600 ==> secs % 3600 / 60 == secs / 60
  {
    var q, r := secs / 3600, secs % 3600;
    var a, b := r / 60, r % 60;
    assert secs == (q * 60 + a) * 60 + b;
    SixtyUnique(secs, q * 60 + a, b);
  }

  /** Quotient and remainder by 60 are the only such decomposition. */
  lemma SixtyUnique(x: nat, k: nat, b: nat)
    requires b < 60 && x == k * 60 + b
    ensures x / 60 == k && x % 60 == b
  {
  }

  /** The fields of the formatted text: two of them below an hour, three
      from an hour on; the leading field is unpadded, the others are two
      digits and read back as minutes and seconds of the clock. */
  lemma DurationFields(secs: nat)
    ensures var parts := Split(FormatDuration(secs), ':');
      && (secs < 3600 ==>
            && |parts| == 2
            && parts[0] == NatToString(secs / 60)
            && |parts[1]| == 2 && ParseNat(parts[1]) == Some(secs % 60))
      && (secs >= 3600 ==>
            && |parts| == 3
            && parts[0] == NatToString(secs / 3600)
            && |parts[1]| == 2 && ParseNat(parts[1]) == Some(secs % 3600 / 60)
            && |parts[2]| == 2 && ParseNat(parts[2]) == Some(secs % 60))
  {
    var h, m, s := secs / 3600, secs % 3600 / 60, secs % 60;
    ClockArithmetic(secs);
    ClockField(m);
    ClockField(s);
    if h == 0 {
      MinutesFields(m, s);
    } else {
      HoursFields(h, m, s);
    }
  }

  /** Reading the formatted text back gives the number of seconds, so the
      format loses nothing. */
  lemma FormatDurationRoundTrip(secs: nat)
    ensures ParseDuration(FormatDuration(secs)) == Some(secs)
  {
    ClockArithmetic(secs);
    ClockTextReadBack(secs / 3600, secs % 3600 / 60, secs % 60);
  }

  lemma ClockTwo(parts: seq<string>, m: nat, s: nat)
    requires |parts| == 2 && ParseNat(parts[0]) == Some(m)
    requires |parts[1]| == 2 && ParseNat(parts[1]) == Some(s) && s < 60
    ensures ParseClock(parts) == Some(m * 60 + s)
  {
  }

  lemma ClockThree(parts: seq<string>, h: nat, m: nat, s: nat)
    requires |parts| == 3 && ParseNat(parts[0]) == Some(h) && h >= 1
    requires |parts[1]| == 2 && ParseNat(parts[1]) == Some(m) && m < 60
    requires |parts[2]| == 2 && ParseNat(parts[2]) == Some(s) && s < 60
    ensures ParseClock(parts) == Some(h * 3600 + m * 60 + s)
  {
  }

  /** Different lengths never format to the same text. */
  lemma FormatDurationInjective(a: nat, b: nat)
    requires FormatDuration(a) == FormatDuration(b)
    ensures a == b
  {
    FormatDurationRoundTrip(a);
    FormatDurationRoundTrip(b);
  }

  /** The worked examples: 45 s, 125 s and 3725 s. */
  lemma FormatDurationExamples()
    ensures FormatDuration(45) == "0:45"
    ensures FormatDuration(125) == "2:05"
    ensures FormatDuration(3725) == "1:02:05"
  {
    SecondsExample();
    MinutesExample();
    HoursExample();
  }

  lemma SecondsExample()
    ensures FormatDuration(45) == "0:45"
  {
    assert 45 / 3600 == 0 && 45 % 3600 / 60 == 0 && 45 % 60 == 45;
    assert NatToString(0) == "0";
    assert NatToString(45) == "45" by {
      assert NatToString(4) == "4" && NatToString(5) == "5";
    }
  }

  lemma MinutesExample()
    ensures FormatDuration(125) == "2:05"
  {
    assert 125 / 3600 == 0 && 125 % 3600 / 60 == 2 && 125 % 60 == 5;
    assert NatToString(2) == "2" && NatToString(5) == "5";
  }

  lemma HoursExample()
    ensures FormatDuration(3725) == "1:02:05"
  {
    assert 3725 / 3600 == 1 && 3725 % 3600 / 60 == 2 && 3725 % 60 == 5;
    assert NatToString(1) == "1" && NatToString(2) == "2" && NatToString(5) == "5";
  }
}

=== FILE: iframe_api.dfy ===
/** The embed-player side of the detail hook: the memoised loader of the
    player script (module-level `ytApiReady` / `ytApiReadyCallbacks`) and
    the off-screen player that measures a trailer's length. */
module IframeApi {
  import opened Wrappers
  import opened Duration

  const SCRIPT_ID: string := "youtube-iframe-api"
  const SCRIPT_SRC: string := "https://www.youtube.com/iframe_api"

  /** What a call of the loader hands back: an already resolved promise
      (the API object is on the page) or the shared pending one. */
  datatype LoadResult = AlreadyLoaded | Awaiting(promise: nat)

  /** A `<script>` element as the loader creates it. */
  datatype ScriptTag = ScriptTag(id: string, src: string)

  /** The loader's page-lifetime state. Promises are named by number; the
      resolver queued for a promise is named by that promise. */
  class ApiLoader {
    var apiLoaded: bool          // window.YT and window.YT.Player exist
    var ready: Option<nat>       // ytApiReady: the memoised promise, once made
    var callbacks: seq<nat>      // ytApiReadyCallbacks: queued resolvers
    var tagPresent: bool         // an element with the script's id exists
    var appended: seq<ScriptTag> // script tags this loader appended
    var handlerInstalled: bool   // window.onYouTubeIframeAPIReady is this loader's

    ghost predicate Valid()
      reads this
    {
      && |appended| <= 1
      && (handlerInstalled <==> |appended| == 1)
      && (|appended| == 1 ==> tagPresent && appended[0] == ScriptTag(SCRIPT_ID, SCRIPT_SRC))
      && (ready.None? ==> callbacks == [] && appended == [])
      && |callbacks| <= 1
      && (forall i :: 0 <= i < |callbacks| ==> ready == Some(callbacks[i]))
    }

    /** The state at page load: nothing memoised yet. */
    constructor (apiLoaded: bool, tagPresent: bool)
      ensures Valid()
      ensures this.apiLoaded == apiLoaded && this.tagPresent == tagPresent
      ensures ready == None && callbacks == [] && appended == [] && !handlerInstalled
    {
      this.apiLoaded := apiLoaded;
      this.tagPresent := tagPresent;
      ready := None;
      callbacks := [];
      appended := [];
      handlerInstalled := false;
    }

    /** `loadYouTubeIframeAPI()`. With the API present it resolves at
        once; with a promise pending it returns that same promise; otherwise
        it makes the promise, queues its resolver and, only when no element
        with the script's id exists, appends the script tag and installs the
        ready handler. */
    method Load() returns (r: LoadResult)
      requires Valid()
      modifies this
      ensures Valid()
      ensures old(apiLoaded) ==> r == AlreadyLoaded && unchanged(this)
      ensures !old(apiLoaded) && old(ready).Some? ==>
        r == Awaiting(old(ready).value) && unchanged(this)
      ensures !old(apiLoaded) && old(ready).None? ==>
        && r.Awaiting? && ready == Some(r.promise) && callbacks == [r.promise]
        && apiLoaded == old(apiLoaded) && tagPresent
        && appended == (if old(tagPresent) then [] else [ScriptTag(SCRIPT_ID, SCRIPT_SRC)])
        && handlerInstalled == !old(tagPresent)
    {
      if apiLoaded {
        return AlreadyLoaded;
      }
      if ready.Some? {
        return Awaiting(ready.value);
      }
      var p := 0;
      ready := Some(p);
      callbacks := callbacks + [p];
      if !tagPresent {
        tagPresent := true;
        appended := appended + [ScriptTag(SCRIPT_ID, SCRIPT_SRC)];
        handlerInstalled := true;
      }
      r := Awaiting(p);
    }

    /** The player script has finished loading: the API object now exists,
        and if this loader's ready handler is installed it calls every
        queued resolver once, in order, and empties the queue. */
    method ScriptLoaded() returns (resolved: seq<nat>)
      requires Valid()
      modifies this
      ensures Valid()
      ensures apiLoaded
      ensures resolved == (if old(handlerInstalled) then old(callbacks) else [])
      ensures callbacks == (if old(handlerInstalled) then [] else old(callbacks))
      ensures ready == old(ready) && tagPresent == old(tagPresent)
      ensures appended == old(appended) && handlerInstalled == old(handlerInstalled)
    {
      apiLoaded := true;
      resolved := [];
      if handlerInstalled {
        var i := 0;
        while i < |callbacks|
          invariant 0 <= i <= |callbacks|
          invariant resolved == callbacks[..i]
        {
          resolved := resolved + [callbacks[i]];
          i := i + 1;
        }
        assert callbacks[..|callbacks|] == callbacks;
        callbacks := [];
      }
    }
  }

  /** A scenario: two detail loads before the script arrives share one
      promise and one script tag, and both are resolved by the one load. */
  method TwoCallersShareOneLoad() returns (first: LoadResult, second: LoadResult, resolved: seq<nat>)
    ensures first.Awaiting? && second == first
    ensures resolved == [first.promise]
  {
    var loader := new ApiLoader(false, false);
    first := loader.Load();
    second := loader.Load();
    assert loader.appended == [ScriptTag(SCRIPT_ID, SCRIPT_SRC)];
    resolved := loader.ScriptLoaded();
    var third := loader.Load();
    assert third == AlreadyLoaded;
  }

  /** The part of `document.body` the measurement touches: the off-screen
      containers it has attached and the players living in them. */
  class PageBody {
    var containers: set<nat>
    var players: set<nat>   // a player is named by its container
    var nextNode: nat

    ghost predicate Valid()
      reads this
    {
      players <= containers && forall c :: c in containers ==> c < nextNode
    }

    constructor ()
      ensures Valid() && containers == {} && players == {}
    {
      containers := {};
      players := {};
      nextNode := 0;
    }
  }

  /** How the player for the trailer's key answers. */
  datatype PlayerEvent =
    | OnReady(seconds: nat)   // the ready handler runs; getDuration() gives seconds
    | OnError                 // the error handler runs
    | ConstructorThrows       // constructing the player throws
    | NeverAnswers            // neither handler ever runs (the embed is blocked)

  datatype Measured = Measured(total: nat, formatted: string)

  /** How the measurement's promise settles; `Pending` never settles. */
  datatype Settlement = Resolved(measured: Measured) | Rejected | Pending

  /** `fetchDurationFromIframe` once the API has loaded: attach a hidden
      container, build a player in it and wait for its answer. On ready the
      duration is formatted; on ready and on error the player is destroyed
      and the container removed. When the constructor throws, the promise
      rejects and the container stays attached; when the player never
      answers, the promise stays pending and player and container stay. */
  method MeasureDuration(body: PageBody, event: PlayerEvent) returns (r: Settlement)
    requires body.Valid()
    modifies body
    ensures body.Valid()
    ensures event.OnReady? ==> r == Resolved(Measured(event.seconds, FormatDuration(event.seconds)))
    ensures event.OnError? || event.ConstructorThrows? ==> r == Rejected
    ensures event.NeverAnswers? ==> r == Pending
    ensures !event.NeverAnswers? ==> body.players == old(body.players)
    ensures event.NeverAnswers? ==>
      old(body.players) < body.players && |body.players| == |old(body.players)| + 1
    ensures event.OnReady? || event.OnError? ==> body.containers == old(body.containers)
    ensures event.ConstructorThrows? || event.NeverAnswers? ==>
      old(body.containers) < body.containers && |body.containers| == |old(body.containers)| + 1
  {
    var c := body.nextNode;
    body.nextNode := c + 1;
    body.containers := body.containers + {c};
    match event
    case ConstructorThrows =>
      r := Rejected;
    case NeverAnswers =>
      body.players := body.players + {c};
      r := Pending;
    case OnReady(secs) =>
      body.players := body.players + {c};
      var formatted := FormatDuration(secs);
      body.players := body.players - {c};
      body.containers := body.containers - {c};
      r := Resolved(Measured(secs, formatted));
    case OnError =>
      body.players := body.players + {c};
      body.players := body.players - {c};
      body.containers := body.containers - {c};
      r := Rejected;
  }
}

=== FILE: movie_card.dfy ===
/** The values a movie card derives from one list entry. */
module MovieCard {
  import opened Wrappers
  import opened Text
  import opened Tmdb

  const FALLBACK_IMAGE_URL: string := "/no-movie.png"

  /** The card image: the CDN URL of the poster path, or the fallback. */
  function CardImage(posterPath: Option<string>): (src: string)
    ensures !Truthy(posterPath) ==> src == FALLBACK_IMAGE_URL
    ensures Truthy(posterPath) ==> src == IMAGE_BASE_URL + posterPath.value
  {
    ImageSrc(posterPath, FALLBACK_IMAGE_URL)
  }

  /** The fallback is a local asset, so the image names the poster path. */
  lemma CardImageFaithful(p: Option<string>, q: Option<string>)
    requires CardImage(p) == CardImage(q)
    ensures Truthy(p) <==> Truthy(q)
    ensures Truthy(p) ==> p == q
  {
    assert FALLBACK_IMAGE_URL[0] != IMAGE_BASE_URL[0];
    ImageSrcRecoversPath(p, q, FALLBACK_IMAGE_URL);
  }

  /** `release_date ? release_date.split('-')[0] : 'N/A'`: the text before
      the first `-`, or all of it when there is none. */
  function CardYear(releaseDate: Option<string>): (y: string)
    ensures !Truthy(releaseDate) ==> y == "N/A"
    ensures Truthy(releaseDate) ==>
      && StartsWith(releaseDate.value, y) && '-' !in y
      && (|y| < |releaseDate.value| ==> releaseDate.value[|y|] == '-')
  {
    if Truthy(releaseDate) then
      SplitFirstPiece(releaseDate.value, '-');
      Split(releaseDate.value, '-')[0]
    else "N/A"
  }

  /** For a date `YYYY-MM-DD` the card shows `YYYY`. */
  lemma CardYearOfIsoDate(year: string, rest: string)
    requires year != "" && AllDigits(year)
    ensures CardYear(Some(year + "-" + rest)) == year
  {
    DigitsHaveNo(year, '-');
    SplitAtFirst(year, '-', rest);
  }

  /** The rating label: `NA` for a falsy average (absent or zero). The
      one-decimal text of a present average is not modelled. */
  datatype Rating = NA | Score(average: real)

  function CardRating(voteAverage: Option<real>): (r: Rating)
    ensures r.NA? <==> voteAverage.None? || voteAverage.value == 0.0
    ensures r.Score? ==> r.average == voteAverage.value
  {
    if voteAverage.Some? && voteAverage.value != 0.0 then Score(voteAverage.value) else NA
  }

  /** The card's link target: `/` followed by the movie id. */
  function CardLink(id: nat): string {
    "/" + NatToString(id)
  }

  /** Reads a card link back into a movie id. */
  function ParseCardLink(target: string): Option<nat> {
    if |target| >= 1 && target[0] == '/' then ParseNat(target[1..]) else None
  }

  /** Every card links to its own movie. */
  lemma CardLinkRoundTrip(id: nat)
    ensures ParseCardLink(CardLink(id)) == Some(id)
  {
    ParseNatToString(id);
    assert CardLink(id)[1..] == NatToString(id);
  }
}

=== FILE: movie_detail.dfy ===
/** The detail hook `useMovie(movieId)`: its `movie` / `isLoading` /
    `error` state and the effect that loads one movie, its trailer and the
    trailer's length. */
module MovieDetail {
  import opened Wrappers
  import opened Duration
  import opened Trailer
  import opened IframeApi

  const DETAIL_ERROR: string := "Could not fetch movie details"

  datatype Named = Named(name: string)

  /** The detail payload (the fields the page reads). `video` is the field
      the load attaches the trailer to. */
  datatype MovieData = MovieData(
    id: nat,
    title: string,
    releaseDate: Option<string>,
    runtime: nat,
    voteCount: nat,
    posterPath: Option<string>,
    backdropPath: Option<string>,
    homepage: Option<string>,
    status: string,
    genres: seq<Named>,
    countries: seq<Named>,
    languages: seq<Named>,
    companies: seq<Named>,
    budget: int,
    revenue: int,
    video: Option<Trailer>)

  /** What the detail request (which carries the abort signal) comes to. */
  datatype DetailResponse =
    | DetailNotOk
    | DetailAborted
    | DetailThrown(message: string)
    | DetailOk(data: MovieData)

  /** How the duration step goes: the player API never becomes ready (the
      await never resumes), or a player is built and answers. */
  datatype Measurement = ApiNeverReady | Player(event: PlayerEvent)

  /** Where one run of the effect ends. `Suspended` is an await that never
      resumes. */
  datatype LoadOutcome =
    | Loaded(movie: MovieData)
    | Failed(message: string)
    | Aborted
    | Suspended

  /** The trailer with the player's answer folded in: both duration fields
      on ready, neither otherwise. */
  function WithDuration(t: Trailer, event: PlayerEvent): (r: Trailer)
    ensures r.key == t.key && r.url == t.url
    ensures event.OnReady? ==>
      r.durationSeconds == Some(event.seconds) && r.durationFormatted == Some(FormatDuration(event.seconds))
    ensures !event.OnReady? ==> r == t
  {
    match event
    case OnReady(secs) => t.(durationSeconds := Some(secs), durationFormatted := Some(FormatDuration(secs)))
    case _ => t
  }

  /** Where the effect ends for each mix of answers: only an abort is
      silent, a loaded movie is the fetched payload with at most its
      `video` replaced by the selected trailer, and the run hangs exactly
      when a trailer was found and its measurement never settles. */
  function Outcome(detail: DetailResponse, videos: VideosResponse, m: Measurement): (o: LoadOutcome)
    ensures o.Aborted? <==> detail.DetailAborted?
    ensures detail.DetailNotOk? ==> o == Failed(DETAIL_ERROR)
    ensures detail.DetailThrown? ==> o == Failed(detail.message)
    ensures detail.DetailOk? && videos.VideosNotOk? ==> o == Failed(VIDEOS_ERROR)
    ensures detail.DetailOk? && videos.VideosThrown? ==> o == Failed(videos.message)
    ensures o.Loaded? ==> detail.DetailOk? && videos.VideosOk? && o.movie == detail.data.(video := o.movie.video)
    ensures o.Loaded? && SelectTrailer(videos.results).Some? ==>
      o.movie.video.Some? && o.movie.video.value.key == SelectTrailer(videos.results).value.key
    ensures o.Suspended? <==>
      && detail.DetailOk? && videos.VideosOk? && SelectTrailer(videos.results).Some?
      && (m.ApiNeverReady? || m == Player(NeverAnswers))
  {
    match detail
    case DetailAborted => Aborted
    case DetailNotOk => Failed(DETAIL_ERROR)
    case DetailThrown(msg) => Failed(msg)
    case DetailOk(data) =>
      match FetchTrailer(videos)
      case Err(msg) => Failed(msg)
      case Ok(None) => Loaded(data)
      case Ok(Some(t)) =>
        match m
        case ApiNeverReady => Suspended
        case Player(event) =>
          if event.NeverAnswers? then Suspended
          else Loaded(data.(video := Some(WithDuration(t, event))))
  }

  /** An aborted detail request is never reported as an error. */
  lemma AbortIsNotAnError(videos: VideosResponse, m: Measurement)
    ensures !Outcome(DetailAborted, videos, m).Failed?
    ensures !Outcome(DetailAborted, videos, m).Loaded?
  {
  }

  /** A failed videos request fails the whole load: `fetchTrailer` is not
      guarded by its own try, so the detail already fetched is dropped. */
  lemma VideosFailureFailsLoad(data: MovieData, videos: VideosResponse, m: Measurement)
    requires !videos.VideosOk?
    ensures Outcome(DetailOk(data), videos, m).Failed?
    ensures videos.VideosNotOk? ==> Outcome(DetailOk(data), videos, m) == Failed(VIDEOS_ERROR)
  {
  }

  /** No official trailer is not an error: the detail loads as fetched,
      whatever the player would have done. */
  lemma NoTrailerStillLoads(data: MovieData, results: seq<Video>, m: Measurement)
    requires forall j :: 0 <= j < |results| ==> !IsOfficialTrailer(results[j])
    ensures Outcome(DetailOk(data), VideosOk(results), m) == Loaded(data)
  {
  }

  /** A failed duration lookup is swallowed: the trailer is attached with
      its key and URL but without the two duration fields. A player that
      never answers is no failure: the run waits for ever. */
  lemma DurationFailureSwallowed(data: MovieData, results: seq<Video>, event: PlayerEvent)
    requires SelectTrailer(results).Some? && !event.OnReady?
    ensures var o := Outcome(DetailOk(data), VideosOk(results), Player(event));
      && (event.NeverAnswers? ==> o == Suspended)
      && (!event.NeverAnswers? ==>
            && o.Loaded? && o.movie.video == SelectTrailer(results)
            && o.movie.video.value.durationSeconds.None? && o.movie.video.value.durationFormatted.None?)
  {
  }

  /** On ready the attached trailer carries the reported seconds and their
      formatted text, and otherwise the payload is the one fetched. */
  lemma DurationAttached(data: MovieData, results: seq<Video>, secs: nat)
    requires SelectTrailer(results).Some?
    ensures var o := Outcome(DetailOk(data), VideosOk(results), Player(OnReady(secs)));
      && o.Loaded? && o.movie == data.(video := o.movie.video)
      && o.movie.video.Some? && o.movie.video.value.key == SelectTrailer(results).value.key
      && o.movie.video.value.durationSeconds == Some(secs)
      && o.movie.video.value.durationFormatted == Some(FormatDuration(secs))
  {
  }

  /** Whether the run leaves an off-screen container attached: only when a
      trailer was found and the player constructor threw or the player
      never answered. */
  predicate LeavesContainer(detail: DetailResponse, videos: VideosResponse, m: Measurement) {
    && detail.DetailOk? && videos.VideosOk? && SelectTrailer(videos.results).Some?
    && (m == Player(ConstructorThrows) || m == Player(NeverAnswers))
  }

  /** Whether the run leaves a live player behind: only a player that
      never answered. */
  predicate LeavesPlayer(detail: DetailResponse, videos: VideosResponse, m: Measurement) {
    && detail.DetailOk? && videos.VideosOk? && SelectTrailer(videos.results).Some?
    && m == Player(NeverAnswers)
  }

  /** The hook's state. Abort controllers are named by number. */
  class DetailHook {
    var movieId: string
    var movie: Option<MovieData>
    var isLoading: bool
    var error: string
    var controller: Option<nat>   // the controller of the effect now mounted
    var aborted: set<nat>         // controllers whose abort() has run
    var controllersMade: nat

    ghost predicate Valid()
      reads this
    {
      && (controller.Some? ==> controller.value < controllersMade)
      && (forall c :: c in aborted ==> c < controllersMade)
    }

    /** First render: no movie, not loading, no error, no effect run yet. */
    constructor (movieId: string)
      ensures Valid()
      ensures this.movieId == movieId && movie == None && !isLoading && error == ""
      ensures controller == None && aborted == {}
    {
      this.movieId := movieId;
      movie := None;
      isLoading := false;
      error := "";
      controller := None;
      aborted := {};
      controllersMade := 0;
    }

    /** One run of the effect. A falsy id starts nothing. Otherwise the
        run clears the error, raises the loading flag, and settles as
        `Outcome` says: a loaded movie replaces `movie`, a failure sets
        `error` and keeps the old movie, an abort sets neither, and every
        completed path lowers the loading flag; a run that hangs leaves it
        raised. */
    method Effect(detail: DetailResponse, videos: VideosResponse, m: Measurement, body: PageBody)
      requires Valid() && body.Valid()
      modifies this, body
      ensures Valid() && body.Valid()
      ensures movieId == old(movieId) && aborted == old(aborted)
      ensures old(movieId) == "" ==> unchanged(this) && unchanged(body)
      ensures old(movieId) != "" ==>
        var o := Outcome(detail, videos, m);
        && controller == Some(old(controllersMade)) && controllersMade == old(controllersMade) + 1
        && controller.value !in aborted
        && movie == (if o.Loaded? then Some(o.movie) else old(movie))
        && error == (if o.Failed? then o.message else "")
        && isLoading == o.Suspended?
      ensures !(old(movieId) != "" && LeavesPlayer(detail, videos, m)) ==> body.players == old(body.players)
      ensures old(movieId) != "" && LeavesPlayer(detail, videos, m) ==> |body.players| == |old(body.players)| + 1
      ensures !(old(movieId) != "" && LeavesContainer(detail, videos, m)) ==> body.containers == old(body.containers)
      ensures old(movieId) != "" && LeavesContainer(detail, videos, m) ==> |body.containers| == |old(body.containers)| + 1
    {
      if movieId == "" {
        return;
      }
      controller := Some(controllersMade);
      controllersMade := controllersMade + 1;
      isLoading := true;
      error := "";
      match detail {
        case DetailAborted =>
        case DetailNotOk =>
          error := DETAIL_ERROR;
        case DetailThrown(msg) =>
          error := msg;
        case DetailOk(data) =>
          var trailer := FetchTrailer(videos);
          if trailer.Err? {
            error := trailer.message;
          } else {
            var loaded := data;
            if trailer.value.Some? {
              if m.ApiNeverReady? {
                return;
              }
              var t := trailer.value.value;
              var measured := MeasureDuration(body, m.event);
              if measured.Pending? {
                return;
              }
              if measured.Resolved? {
                t := t.(durationSeconds := Some(measured.measured.total));
                t := t.(durationFormatted := Some(measured.measured.formatted));
              }
              loaded := loaded.(video := Some(t));
            }
            movie := Some(loaded);
          }
      }
      isLoading := false;
    }

    /** The effect's cleanup, run when `movieId` changes or the page
        unmounts: the running effect's controller is aborted. */
    method Cleanup()
      requires Valid()
      modifies this
      ensures Valid()
      ensures controller == None
      ensures aborted == old(aborted) + (if old(controller).Some? then {old(controller).value} else {})
      ensures movieId == old(movieId) && movie == old(movie) && isLoading == old(isLoading) && error == old(error)
      ensures controllersMade == old(controllersMade)
    {
      if controller.Some? {
        aborted := aborted + {controller.value};
      }
      controller := None;
    }

    /** A new `movieId` from the route: the previous effect is cleaned up
        before the next one can run. */
    method Navigate(newId: string)
      requires Valid()
      modifies this
      ensures Valid()
      ensures movieId == newId
      ensures newId != old(movieId) ==>
        controller == None && aborted == old(aborted) + (if old(controller).Some? then {old(controller).value} else {})
      ensures newId == old(movieId) ==> unchanged(this)
      ensures movie == old(movie) && isLoading == old(isLoading) && error == old(error)
    {
      if newId != movieId {
        Cleanup();
        movieId := newId;
      }
    }
  }
}

=== FILE: movie_list.dfy ===
/** What the result list section shows for the search hook's state. */
module MovieList {
  import opened Tmdb

  /** The parts of the section: the heading text when shown, and whether
      the spinner, the error and the grid of cards are shown. */
  datatype Section = Section(heading: string, headingShown: bool, spinner: bool, errorShown: bool, grid: bool)

  /** `Results for "<term>"` for a search, else `Popular Movies`. */
  function HeadingText(searchTerm: string): string {
    if searchTerm != "" then "Results for \"" + searchTerm + "\"" else "Popular Movies"
  }

  function HasMovies(movies: seq<MovieSummary>): bool {
    |movies| > 0
  }

  function ListSection(movies: seq<MovieSummary>, isLoading: bool, error: string, searchTerm: string): (s: Section)
    ensures s.headingShown <==> isLoading || error != "" || |movies| > 0
    ensures s.heading == HeadingText(searchTerm)
    ensures s.spinner <==> isLoading
    ensures s.errorShown <==> !isLoading && error != ""
    ensures s.grid <==> !isLoading && error == "" && |movies| > 0
  {
    var hasMovies := HasMovies(movies);
    Section(
      HeadingText(searchTerm),
      isLoading || error != "" || hasMovies,
      isLoading,
      !isLoading && error != "",
      !isLoading && error == "" && hasMovies)
  }

  /** At most one of spinner, error and grid is shown, and the heading is
      shown whenever one of them is. */
  lemma SectionExclusive(movies: seq<MovieSummary>, isLoading: bool, error: string, searchTerm: string)
    ensures var s := ListSection(movies, isLoading, error, searchTerm);
      && !(s.spinner && s.errorShown) && !(s.spinner && s.grid) && !(s.errorShown && s.grid)
      && (s.spinner || s.errorShown || s.grid <==> s.headingShown)
  {
  }

  /** A search heading names the term between quotes; the popular heading
      is never confused with one. */
  lemma HeadingNamesTerm(searchTerm: string)
    ensures searchTerm != "" ==> HeadingText(searchTerm)[13..|HeadingText(searchTerm)| - 1] == searchTerm
    ensures searchTerm != "" ==> HeadingText(searchTerm) != HeadingText("")
  {
    if searchTerm != "" {
      assert HeadingText(searchTerm)[0] != HeadingText("")[0];
    }
  }
}

=== FILE: movie_page.dfy ===
/** The values the movie detail page derives from the detail hook's
    state: which of spinner, error and details it shows, and the texts and
    links of the details. */
module MoviePage {
  import opened Wrappers
  import opened Text
  import opened Tmdb
  import opened Trailer
  import opened Duration
  import opened IframeApi
  import opened MovieDetail
  import MovieCard

  const PLACEHOLDER: string := "/placeholder.png"
  const NAME_SEPARATOR: string := " • "

  /** What the page renders. */
  datatype PageView = Spinner | ErrorMessage(message: string) | Details(movie: MovieData)

  /** A spinner while loading or while there is no movie; otherwise the
      error if there is one, else the details. */
  function View(isLoading: bool, movie: Option<MovieData>, error: string): (v: PageView)
    ensures v.Spinner? <==> isLoading || movie.None?
    ensures v.ErrorMessage? <==> !isLoading && movie.Some? && error != ""
    ensures v.ErrorMessage? ==> v.message == error
    ensures v.Details? ==> movie == Some(v.movie) && error == ""
  {
    if isLoading then Spinner
    else if movie.None? then Spinner
    else if error != "" then ErrorMessage(error)
    else Details(movie.value)
  }

  /** A first load that fails leaves no movie, so the page keeps showing
      the spinner and never the error message the hook holds. */
  method FailedFirstLoadShowsSpinner(id: string, detail: DetailResponse, videos: VideosResponse, m: Measurement)
    returns (v: PageView, error: string)
    requires id != "" && Outcome(detail, videos, m).Failed?
    ensures v == Spinner
    ensures error == Outcome(detail, videos, m).message
  {
    var hook := new DetailHook(id);
    var body := new PageBody();
    hook.Effect(detail, videos, m, body);
    v := View(hook.isLoading, hook.movie, hook.error);
    error := hook.error;
  }

  /** `"<hours> hr <minutes> min"` for a runtime in minutes. */
  function RuntimeText(runtime: nat): string {
    HoursAndMinutes(runtime / 60, runtime % 60)
  }

  function HoursAndMinutes(h: nat, m: nat): string {
    NatToString(h) + " hr " + NatToString(m) + " min"
  }

  /** Reads `"<h> hr <m> min"`, minutes below 60, back into minutes. */
  function ParseRuntimeText(t: string): Option<nat> {
    var parts := Split(t, ' ');
    if |parts| == 4 && parts[1] == "hr" && parts[3] == "min"
       && ParseNat(parts[0]).Some? && ParseNat(parts[2]).Some? && ParseNat(parts[2]).value < 60
    then Some(ParseNat(parts[0]).value * 60 + ParseNat(parts[2]).value)
    else None
  }

  /** The runtime text splits on spaces into the hours, `hr`, the minutes
      and `min`. */
  lemma HoursAndMinutesFields(h: nat, m: nat)
    ensures Split(HoursAndMinutes(h, m), ' ') == [NatToString(h), "hr", NatToString(m), "min"]
  {
    var hs, ms := NatToString(h), NatToString(m);
    DigitsHaveNo(hs, ' ');
    DigitsHaveNo(ms, ' ');
    WordsFields(hs, "hr", ms, "min");
    assert HoursAndMinutes(h, m) == hs + " " + "hr" + " " + ms + " " + "min";
  }

  lemma WordsFields(a: string, b: string, c: string, d: string)
    requires ' ' !in a && ' ' !in b && ' ' !in c && ' ' !in d
    ensures Split(a + " " + b + " " + c + " " + d, ' ') == [a, b, c, d]
  {
    var sp := [' '];
    SplitNoSeparator(d, ' ');
    SplitAtFirst(c, ' ', d);
    SplitAtFirst(b, ' ', c + sp + d);
    SplitAtFirst(a, ' ', b + sp + (c + sp + d));
    assert a + " " + b + " " + c + " " + d == a + sp + (b + sp + (c + sp + d));
  }

  /** Fields `<h> hr <m> min` read back as `h` hours and `m` minutes. */
  lemma WordsReadBack(t: string, hs: string, ms: string, h: nat, m: nat)
    requires Split(t, ' ') == [hs, "hr", ms, "min"]
    requires ParseNat(hs) == Some(h) && ParseNat(ms) == Some(m)
    ensures ParseRuntimeText(t) == if m < 60 then Some(h * 60 + m) else None
  {
  }

  /** An hours-and-minutes text reads back as its number of minutes exactly
      when the minutes are below 60: `"0 hr 90 min"` is no runtime text. */
  lemma HoursAndMinutesReadBack(h: nat, m: nat)
    ensures ParseRuntimeText(HoursAndMinutes(h, m)) == if m < 60 then Some(h * 60 + m) else None
  {
    HoursAndMinutesFields(h, m);
    ParseNatToString(h);
    ParseNatToString(m);
    WordsReadBack(HoursAndMinutes(h, m), NatToString(h), NatToString(m), h, m);
  }

  /** The runtime text holds the whole hours and the remaining minutes, so
      reading it back gives the runtime. */
  lemma RuntimeTextRoundTrip(runtime: nat)
    ensures ParseRuntimeText(RuntimeText(runtime)) == Some(runtime)
  {
    HoursAndMinutesReadBack(runtime / 60, runtime % 60);
  }

  /** `release_date ? release_date.slice(0, 4) : 'N/A'`. */
  function ReleaseYear(releaseDate: Option<string>): (y: string)
    ensures !Truthy(releaseDate) ==> y == "N/A"
    ensures Truthy(releaseDate) ==>
      && StartsWith(releaseDate.value, y)
      && |y| == (if |releaseDate.value| < 4 then |releaseDate.value| else 4)
  {
    if Truthy(releaseDate) then
      var d := releaseDate.value;
      if |d| <= 4 then d else d[..4]
    else "N/A"
  }

  /** For a date `YYYY-MM-DD` the page shows the same year as the card. */
  lemma ReleaseYearMatchesCard(year: string, rest: string)
    requires |year| == 4 && AllDigits(year)
    ensures ReleaseYear(Some(year + "-" + rest)) == year
    ensures MovieCard.CardYear(Some(year + "-" + rest)) == year
  {
    var d := year + "-" + rest;
    assert d[..4] == year;
    MovieCard.CardYearOfIsoDate(year, rest);
  }

  /** Poster and backdrop: the CDN URL of the path, or the placeholder. */
  function PageImage(path: Option<string>): (src: string)
    ensures !Truthy(path) ==> src == PLACEHOLDER
    ensures Truthy(path) ==> src == IMAGE_BASE_URL + path.value
  {
    ImageSrc(path, PLACEHOLDER)
  }

  /** The placeholder is a local asset, so two paths give the same image
      source only when both are missing or both are the same path. */
  lemma PageImageFaithful(p: Option<string>, q: Option<string>)
    requires PageImage(p) == PageImage(q)
    ensures Truthy(p) <==> Truthy(q)
    ensures Truthy(p) ==> p == q
  {
    assert PLACEHOLDER[0] != IMAGE_BASE_URL[0];
    ImageSrcRecoversPath(p, q, PLACEHOLDER);
  }

  /** JavaScript's `toUpperCase` on one character, for ASCII letters. */
  function UpperAscii(c: char): (u: char)
    ensures 'a' <= c <= 'z' ==> 'A' <= u <= 'Z' && u as int == c as int - 32
    ensures !('a' <= c <= 'z') ==> u == c
  {
    if 'a' <= c <= 'z' then (c as int - 32) as char else c
  }

  /** `status.charAt(0).toUpperCase() + status.slice(1)`. */
  function Capitalize(status: string): (r: string)
    ensures |r| == |status|
    ensures status != "" ==> r[0] == UpperAscii(status[0]) && r[1..] == status[1..]
  {
    if status == "" then "" else [UpperAscii(status[0])] + status[1..]
  }

  /** Capitalizing twice is capitalizing once. */
  lemma CapitalizeIdempotent(status: string)
    ensures Capitalize(Capitalize(status)) == Capitalize(status)
  {
    if status != "" {
      var r := Capitalize(status);
      assert r[1..] == status[1..];
      assert [UpperAscii(r[0])] + r[1..] == r;
    }
  }

  /** The test `/^https?:\/\//`, read as the pattern reads: `http`, then
      an optional `s`, then `://`. */
  predicate SchemePattern(h: string) {
    && StartsWith(h, "http")
    && var i := if |h| > 4 && h[4] == 's' then 5 else 4;
       StartsWith(h[i..], "://")
  }

  /** The pattern holds exactly of texts starting `http://` or `https://`. */
  lemma SchemePatternIsPrefixTest(h: string)
    ensures SchemePattern(h) <==> StartsWith(h, "http://") || StartsWith(h, "https://")
  {
    if StartsWith(h, "http://") {
      assert h[4..7] == h[..7][4..7] == "://";
      assert h[4] == ':' && h[4..][..3] == h[4..7];
    }
    if StartsWith(h, "https://") {
      assert h[5..8] == h[..8][5..8] == "://";
      assert h[4] == 's' && h[5..][..3] == h[5..8];
    }
    if SchemePattern(h) {
      var i := if |h| > 4 && h[4] == 's' then 5 else 4;
      assert h[..i + 3] == h[..4] + h[4..i] + h[i..][..3];
      if i == 5 {
        assert h[4..i] == "s";
      }
    }
  }

  /** The homepage link's `href`: the homepage when it matches the
      pattern, otherwise no target. */
  function HomepageHref(homepage: Option<string>): (href: Option<string>)
    ensures href.Some? <==> homepage.Some? && (StartsWith(homepage.value, "http://") || StartsWith(homepage.value, "https://"))
    ensures href.Some? ==> href == homepage
  {
    match homepage
    case None => None
    case Some(h) =>
      SchemePatternIsPrefixTest(h);
      if h != "" && SchemePattern(h) then homepage else None
  }

  function Names(items: seq<Named>): (names: seq<string>)
    ensures |names| == |items|
    ensures forall i :: 0 <= i < |items| ==> names[i] == items[i].name
  {
    if items == [] then [] else [items[0].name] + Names(items[1..])
  }

  lemma NamesAppend(a: seq<Named>, b: seq<Named>)
    ensures Names(a + b) == Names(a) + Names(b)
  {
    var l, r := Names(a + b), Names(a) + Names(b);
    assert |l| == |r|;
    forall i | 0 <= i < |l|
      ensures l[i] == r[i]
    {
      if i < |a| {
        assert (a + b)[i] == a[i];
      } else {
        assert (a + b)[i] == b[i - |a|];
      }
    }
  }

  /** Countries, languages and companies: the names joined by ` • `. */
  function JoinNames(items: seq<Named>): string {
    Join(Names(items), NAME_SEPARATOR)
  }

  /** Names keep their input order: the joined text of a concatenation is
      the joined texts with one separator between them. */
  lemma JoinNamesInOrder(a: seq<Named>, b: seq<Named>)
    requires a != [] && b != []
    ensures JoinNames(a + b) == JoinNames(a) + NAME_SEPARATOR + JoinNames(b)
    ensures JoinNames([a[0]]) == a[0].name
    ensures JoinNames([]) == ""
  {
    NamesAppend(a, b);
    JoinAppend(Names(a), Names(b), NAME_SEPARATOR);
  }

  /** The trailer link's `href`, shown only when a formatted duration is
      present. */
  function TrailerLink(video: Option<Trailer>): (href: Option<string>)
    ensures href.Some? <==> video.Some? && Truthy(video.value.durationFormatted)
    ensures href.Some? ==> href.value == video.value.url
  {
    if video.Some? && Truthy(video.value.durationFormatted) then Some(video.value.url) else None
  }

  /** A load with a trailer completes unless the player never answers;
      then the link appears exactly when the player reported the trailer's
      length, and it points at the trailer's watch URL. */
  lemma TrailerLinkAfterLoad(data: MovieData, results: seq<Video>, event: PlayerEvent)
    requires SelectTrailer(results).Some?
    ensures var o := Outcome(DetailOk(data), VideosOk(results), Player(event));
      && (o.Loaded? <==> !event.NeverAnswers?)
      && (o.Loaded? ==> (TrailerLink(o.movie.video).Some? <==> event.OnReady?))
      && (event.OnReady? ==> TrailerLink(o.movie.video) == Some(WATCH_URL_PREFIX + SelectTrailer(results).value.key))
  {
    if event.OnReady? {
      var f := FormatDuration(event.seconds);
      assert |f| >= 1 by {
        assert NatToString(event.seconds % 3600 / 60) != [] && NatToString(event.seconds / 3600) != [];
      }
    }
  }

  /** Budget and revenue: shown in millions when positive, else `N/A`. */
  datatype Money = NotAvailable | InMillions(amount: nat)

  function MoneyShown(amount: int): (m: Money)
    ensures m.NotAvailable? <==> amount <= 0
    ensures m.InMillions? ==> m.amount == amount
  {
    if amount > 0 then InMillions(amount) else NotAvailable
  }

  /** The vote count's suffix. */
  datatype VoteTier = Millions | Thousands | Raw(count: int)

  function VoteCountTier(count: int): (t: VoteTier)
    ensures t.Millions? <==> count >= 1000000
    ensures t.Thousands? <==> 1000 <= count < 1000000
    ensures t.Raw? ==> t.count == count && count < 1000
  {
    if count > 999999 then Millions else if count > 999 then Thousands else Raw(count)
  }
}

=== FILE: movies_search.dfy ===
/** The search hook `useMovies(query)`: `movies` / `isLoading` / `error`
    state, the effect that lists movies for the query, and the abort of
    the previous request when the query changes. */
module MoviesSearch {
  import opened Wrappers
  import opened Tmdb
  import opened SearchCounts

  const FETCH_ERROR: string := "Something went wrong while fetching movies."
  const EMPTY_ERROR: string := "No movies found."
  const DISCOVER_ORDER: string := "popularity.desc"

  /** A non-empty query searches for it, with no sort parameter; an empty
      one lists popular movies. */
  function SearchEndpoint(query: string): (e: Endpoint)
    ensures e.Search? <==> query != ""
    ensures e.Search? ==> e.query == query && e.sortBy == None
    ensures e.Discover? ==> e.order == DISCOVER_ORDER
  {
    if query != "" then Search(query, None) else Discover(DISCOVER_ORDER)
  }

  /** How one request settles for the hook. */
  datatype Settled = Listed(movies: seq<MovieSummary>) | Failed(message: string) | Cancelled

  /** The hook's reading of a response: a non-ok status and missing or
      empty results are errors with fixed messages, other rejections keep
      their message, and an abort is neither a result nor an error. */
  function Classify(response: ListResponse): (s: Settled)
    ensures s.Listed? <==> response.ListOk? && response.payload.results.Some? && |response.payload.results.value| > 0
    ensures s.Listed? ==> s.movies == response.payload.results.value
    ensures s.Cancelled? <==> response.ListAborted?
    ensures response.ListNotOk? ==> s == Failed(FETCH_ERROR)
    ensures response.ListThrown? ==> s == Failed(response.message)
    ensures response.ListOk? && !s.Listed? ==> s == Failed(EMPTY_ERROR)
  {
    match response
    case ListNotOk => Failed(FETCH_ERROR)
    case ListAborted => Cancelled
    case ListThrown(msg) => Failed(msg)
    case ListOk(payload) =>
      if payload.results.None? || |payload.results.value| == 0 then Failed(EMPTY_ERROR)
      else Listed(payload.results.value)
  }

  /** The search is recorded, with the first result, exactly when the
      query is non-empty and the request listed movies. */
  predicate RecordsSearch(query: string, response: ListResponse) {
    query != "" && Classify(response).Listed?
  }

  class MoviesHook {
    var query: string
    var movies: seq<MovieSummary>
    var isLoading: bool
    var error: string
    var controller: Option<nat>   // the controller of the effect now mounted
    var aborted: set<nat>         // controllers whose abort() has run
    var controllersMade: nat

    ghost predicate Valid()
      reads this
    {
      && (controller.Some? ==> controller.value < controllersMade)
      && (forall c :: c in aborted ==> c < controllersMade)
    }

    constructor (query: string)
      ensures Valid()
      ensures this.query == query && movies == [] && !isLoading && error == ""
      ensures controller == None && aborted == {}
    {
      this.query := query;
      movies := [];
      isLoading := false;
      error := "";
      controller := None;
      aborted := {};
      controllersMade := 0;
    }

    /** One run of the effect with a fresh controller: the error is
        cleared and loading raised, then the response to the request at
        `SearchEndpoint(query)` settles the state.
        Listed movies replace `movies` (and a non-empty query is recorded
        in the store with the first of them); a failure sets `error` and
        keeps `movies`; an abort sets neither. Loading ends on every path.
        A failing store leaves its documents as they were. */
    method Effect(response: ListResponse, store: Store, storeFails: bool)
      requires Valid()
      modifies this, store
      ensures Valid()
      ensures query == old(query) && aborted == old(aborted)
      ensures controller == Some(old(controllersMade)) && controller.value !in aborted
      ensures var s := Classify(response);
        && movies == (if s.Listed? then s.movies else old(movies))
        && error == (if s.Failed? then s.message else "")
      ensures !isLoading
      ensures RecordsSearch(old(query), response) && !storeFails ==>
        store.documents == Upserted(old(store.documents), query, Classify(response).movies[0], old(store.nextId))
      ensures !RecordsSearch(old(query), response) || storeFails ==> store.documents == old(store.documents)
    {
      controller := Some(controllersMade);
      controllersMade := controllersMade + 1;
      isLoading := true;
      error := "";
      match response {
        case ListNotOk =>
          error := FETCH_ERROR;
        case ListAborted =>
        case ListThrown(msg) =>
          error := msg;
        case ListOk(payload) =>
          if payload.results.None? || |payload.results.value| == 0 {
            error := EMPTY_ERROR;
          } else {
            movies := payload.results.value;
            if query != "" {
              store.UpdateSearchCount(query, movies[0], storeFails);
            }
          }
      }
      isLoading := false;
    }

    /** The effect's cleanup: the running effect's controller is aborted. */
    method Cleanup()
      requires Valid()
      modifies this
      ensures Valid()
      ensures controller == None
      ensures aborted == old(aborted) + (if old(controller).Some? then {old(controller).value} else {})
      ensures query == old(query) && movies == old(movies) && isLoading == old(isLoading) && error == old(error)
      ensures controllersMade == old(controllersMade)
    {
      if controller.Some? {
        aborted := aborted + {controller.value};
      }
      controller := None;
    }

    /** A new debounced query: when it differs, the previous effect's
        controller is aborted before the next effect runs. */
    method ChangeQuery(newQuery: string)
      requires Valid()
      modifies this
      ensures Valid()
      ensures query == newQuery
      ensures newQuery != old(query) ==>
        controller == None && aborted == old(aborted) + (if old(controller).Some? then {old(controller).value} else {})
      ensures newQuery == old(query) ==> unchanged(this)
      ensures movies == old(movies) && isLoading == old(isLoading) && error == old(error)
    {
      if newQuery != query {
        Cleanup();
        query := newQuery;
      }
    }
  }
}

=== FILE: search_counts.dfy ===
/** The search-count store: a remote document collection used as a
    counter table keyed by search term (`updateSearchCount`) and queried
    for the most counted terms (`getTrendingMovies`). The collection is
    held in memory, in the store's natural (creation) order. */
module SearchCounts {
  import opened Wrappers
  import opened Text
  import opened Tmdb

  const TRENDING_LIMIT: nat := 5

  /** One document: `$id`, `searchTerm`, `count`, `movie_id`, `poster_url`. */
  datatype Document = Document(id: nat, searchTerm: string, count: nat, movieId: nat, posterUrl: string)

  /** The poster URL a new document records: the CDN base followed by the
      poster path as a template literal prints it, with no fallback (an
      absent path prints as `null`). */
  function PosterUrl(movie: MovieSummary): (u: string)
    ensures StartsWith(u, IMAGE_BASE_URL)
    ensures u[|IMAGE_BASE_URL|..] == movie.posterPath.GetOr("null")
  {
    IMAGE_BASE_URL + movie.posterPath.GetOr("null")
  }

  /** The position of the first document with this term: the first of
      the documents an equality query on `searchTerm` lists. */
  function FirstWithTerm(docs: seq<Document>, term: string): (r: Option<nat>)
    ensures r.Some? ==> r.value < |docs| && docs[r.value].searchTerm == term
    ensures r.Some? ==> forall j :: 0 <= j < r.value ==> docs[j].searchTerm != term
    ensures r.None? ==> forall j :: 0 <= j < |docs| ==> docs[j].searchTerm != term
  {
    if docs == [] then None
    else if docs[0].searchTerm == term then Some(0)
    else
      var rest := FirstWithTerm(docs[1..], term);
      if rest.Some? then Some(rest.value + 1) else None
  }

  /** The document a first search for `term` creates. */
  function NewDocument(id: nat, term: string, movie: MovieSummary): Document {
    Document(id, term, 1, movie.id, PosterUrl(movie))
  }

  /** The collection after one successful `updateSearchCount`. */
  function Upserted(docs: seq<Document>, term: string, movie: MovieSummary, newId: nat): seq<Document> {
    match FirstWithTerm(docs, term)
    case Some(i) => docs[i := docs[i].(count := docs[i].count + 1)]
    case None => docs + [NewDocument(newId, term, movie)]
  }

  /** With a document for the term, exactly the first such document has
      its count raised by one; nothing else changes and nothing is made. */
  lemma UpsertExisting(docs: seq<Document>, term: string, movie: MovieSummary, newId: nat, i: nat)
    requires i < |docs| && docs[i].searchTerm == term
    requires forall j :: 0 <= j < i ==> docs[j].searchTerm != term
    ensures var r := Upserted(docs, term, movie, newId);
      && |r| == |docs|
      && r[i] == docs[i].(count := docs[i].count + 1)
      && (forall j :: 0 <= j < |docs| && j != i ==> r[j] == docs[j])
  {
    var f := FirstWithTerm(docs, term);
    assert f.Some?;
    assert !(f.value < i) && !(i < f.value);
  }

  /** Without one, exactly one document is added, counting 1 and carrying
      the movie's id and poster URL. */
  lemma UpsertFresh(docs: seq<Document>, term: string, movie: MovieSummary, newId: nat)
    requires forall j :: 0 <= j < |docs| ==> docs[j].searchTerm != term
    ensures Upserted(docs, term, movie, newId) == docs + [Document(newId, term, 1, movie.id, PosterUrl(movie))]
  {
  }

  /** The sum of the counts recorded for a term. */
  function TermTotal(docs: seq<Document>, term: string): nat {
    if docs == [] then 0
    else (if docs[0].searchTerm == term then docs[0].count else 0) + TermTotal(docs[1..], term)
  }

  lemma {:induction false} TermTotalUpdate(docs: seq<Document>, term: string, i: nat, d: Document)
    requires i < |docs| && d.searchTerm == docs[i].searchTerm
    ensures docs[i].searchTerm == term ==>
      TermTotal(docs[i := d], term) + docs[i].count == TermTotal(docs, term) + d.count
    ensures docs[i].searchTerm != term ==> TermTotal(docs[i := d], term) == TermTotal(docs, term)
  {
    if i > 0 {
      assert docs[i := d][1..] == docs[1..][i - 1 := d];
      TermTotalUpdate(docs[1..], term, i - 1, d);
    } else {
      assert docs[i := d][1..] == docs[1..];
    }
  }

  lemma {:induction false} TermTotalAppend(docs: seq<Document>, term: string, d: Document)
    ensures TermTotal(docs + [d], term) == TermTotal(docs, term) + (if d.searchTerm == term then d.count else 0)
  {
    if docs != [] {
      assert (docs + [d])[1..] == docs[1..] + [d];
      TermTotalAppend(docs[1..], term, d);
    } else {
      assert [d][1..] == [];
    }
  }

  /** Every successful recording adds exactly one to the term's total and
      leaves every other term's total as it was. */
  lemma RecordingCountsOnce(docs: seq<Document>, term: string, movie: MovieSummary, newId: nat, other: string)
    requires other != term
    ensures TermTotal(Upserted(docs, term, movie, newId), term) == TermTotal(docs, term) + 1
    ensures TermTotal(Upserted(docs, term, movie, newId), other) == TermTotal(docs, other)
  {
    match FirstWithTerm(docs, term)
    case Some(i) =>
      var d := docs[i].(count := docs[i].count + 1);
      TermTotalUpdate(docs, term, i, d);
      TermTotalUpdate(docs, other, i, d);
    case None =>
      TermTotalAppend(docs, term, NewDocument(newId, term, movie));
      TermTotalAppend(docs, other, NewDocument(newId, term, movie));
  }

  /** At most one document per term. */
  predicate UniqueTerms(docs: seq<Document>) {
    forall i, j :: 0 <= i < j < |docs| ==> docs[i].searchTerm != docs[j].searchTerm
  }

  /** Recording one search at a time keeps at most one document per term. */
  lemma UpsertKeepsTermsUnique(docs: seq<Document>, term: string, movie: MovieSummary, newId: nat)
    requires UniqueTerms(docs)
    ensures UniqueTerms(Upserted(docs, term, movie, newId))
  {
    var r := Upserted(docs, term, movie, newId);
    match FirstWithTerm(docs, term)
    case Some(i) =>
      forall a, b | 0 <= a < b < |r| ensures r[a].searchTerm != r[b].searchTerm {
        assert r[a].searchTerm == docs[a].searchTerm && r[b].searchTerm == docs[b].searchTerm;
      }
    case None =>
      forall a, b | 0 <= a < b < |r| ensures r[a].searchTerm != r[b].searchTerm {
        if b == |docs| {
          assert r[a] == docs[a];
        } else {
          assert r[a] == docs[a] && r[b] == docs[b];
        }
      }
  }

  /** Two searches for a new term in a row leave one document for it,
      counting 2, with the movie id and poster URL of the first search. */
  lemma TwoSearchesForFreshTerm(docs: seq<Document>, term: string, first: MovieSummary, second: MovieSummary, id1: nat, id2: nat)
    requires forall j :: 0 <= j < |docs| ==> docs[j].searchTerm != term
    ensures Upserted(Upserted(docs, term, first, id1), term, second, id2)
      == docs + [Document(id1, term, 2, first.id, PosterUrl(first))]
  {
    UpsertFresh(docs, term, first, id1);
    var once := docs + [NewDocument(id1, term, first)];
    UpsertExisting(once, term, second, id2, |docs|);
  }

  /** Non-increasing by count. */
  predicate ByCountDesc(s: seq<Document>) {
    forall i, j :: 0 <= i < j < |s| ==> s[i].count >= s[j].count
  }

  /** Inserts `d` before the first document counting no more than it, so
      that among equal counts earlier documents stay first. */
  function InsertByCount(d: Document, s: seq<Document>): (r: seq<Document>)
    ensures |r| == |s| + 1
    ensures r[0] == (if s == [] || d.count >= s[0].count then d else s[0])
  {
    if s == [] || d.count >= s[0].count then [d] + s else [s[0]] + InsertByCount(d, s[1..])
  }

  /** The collection ordered by count, highest first, ties in store order. */
  function SortByCount(docs: seq<Document>): (r: seq<Document>)
    ensures |r| == |docs|
  {
    if docs == [] then [] else InsertByCount(docs[0], SortByCount(docs[1..]))
  }

  lemma {:induction false} InsertByCountPermutes(d: Document, s: seq<Document>)
    ensures multiset(InsertByCount(d, s)) == multiset(s) + multiset{d}
  {
    if s != [] && d.count < s[0].count {
      InsertByCountPermutes(d, s[1..]);
      assert s == [s[0]] + s[1..];
    }
  }

  lemma {:induction false} InsertByCountSorted(d: Document, s: seq<Document>)
    requires ByCountDesc(s)
    ensures ByCountDesc(InsertByCount(d, s))
  {
    if s != [] && d.count < s[0].count {
      InsertByCountSorted(d, s[1..]);
      var t := InsertByCount(d, s[1..]);
      var r := [s[0]] + t;
      assert t[0].count <= s[0].count by {
        if s[1..] != [] && d.count < s[1].count {
          assert t[0] == s[1];
        }
      }
      forall i, j | 0 <= i < j < |r| ensures r[i].count >= r[j].count {
        if i == 0 {
          assert r[j] == t[j - 1];
          assert j - 1 == 0 || t[0].count >= t[j - 1].count;
        } else {
          assert r[i] == t[i - 1] && r[j] == t[j - 1];
        }
      }
    }
  }

  lemma {:induction false} SortByCountSorted(docs: seq<Document>)
    ensures ByCountDesc(SortByCount(docs))
  {
    if docs != [] {
      SortByCountSorted(docs[1..]);
      InsertByCountSorted(docs[0], SortByCount(docs[1..]));
    }
  }

  lemma ConsMultiset(docs: seq<Document>)
    requires docs != []
    ensures multiset(docs) == multiset(docs[1..]) + multiset{docs[0]}
  {
    assert docs == [docs[0]] + docs[1..];
  }

  lemma {:induction false} SortByCountPermutes(docs: seq<Document>)
    ensures multiset(SortByCount(docs)) == multiset(docs)
  {
    if docs != [] {
      var rest := SortByCount(docs[1..]);
      SortByCountPermutes(docs[1..]);
      InsertByCountPermutes(docs[0], rest);
      ConsMultiset(docs);
    }
  }

  function Min(a: nat, b: nat): nat {
    if a <= b then a else b
  }

  /** The ordered, limited query: the first `limit` documents by count. */
  function TopByCount(docs: seq<Document>, limit: nat): seq<Document> {
    SortByCount(docs)[..Min(limit, |docs|)]
  }

  /** A prefix of an ordering by count dominates the rest of it. */
  lemma PrefixDominates(sorted: seq<Document>, k: nat)
    requires k <= |sorted| && ByCountDesc(sorted)
    ensures ByCountDesc(sorted[..k])
    ensures forall d, t :: d in sorted && d !in sorted[..k] && t in sorted[..k] ==> d.count <= t.count
  {
    var top := sorted[..k];
    forall d, t | d in sorted && d !in top && t in top ensures d.count <= t.count {
      var a :| 0 <= a < |sorted| && sorted[a] == d;
      var b :| 0 <= b < |top| && top[b] == t;
    }
  }

  /** The query returns `min(limit, |docs|)` documents of the collection,
      highest count first, and no document left out counts more than any
      document returned. */
  lemma {:induction false} TopByCountIsTop(docs: seq<Document>, limit: nat)
    ensures var top := TopByCount(docs, limit);
      && |top| == Min(limit, |docs|)
      && ByCountDesc(top)
      && multiset(top) <= multiset(docs)
      && (forall d, t :: d in docs && d !in top && t in top ==> d.count <= t.count)
  {
    SortByCountSorted(docs);
    SortByCountPermutes(docs);
    var sorted := SortByCount(docs);
    var k := Min(limit, |docs|);
    var top := sorted[..k];
    assert sorted == top + sorted[k..];
    assert multiset(sorted) == multiset(top) + multiset(sorted[k..]);
    PrefixDominates(sorted, k);
    forall d | d in docs ensures d in sorted {
      assert d in multiset(docs);
    }
  }

  /** The collection as held by the store. Document ids are handed out in
      creation order. */
  class Store {
    var documents: seq<Document>
    var nextId: nat

    constructor ()
      ensures documents == [] && nextId == 0
    {
      documents := [];
      nextId := 0;
    }

    /** The equality query `searchTerm == term`, keeping its first hit. */
    method FindTerm(term: string) returns (i: Option<nat>)
      ensures i.Some? ==> i.value < |documents| && documents[i.value].searchTerm == term
      ensures i.Some? ==> forall j :: 0 <= j < i.value ==> documents[j].searchTerm != term
      ensures i.None? ==> forall j :: 0 <= j < |documents| ==> documents[j].searchTerm != term
    {
      var k := 0;
      while k < |documents|
        invariant 0 <= k <= |documents|
        invariant forall j :: 0 <= j < k ==> documents[j].searchTerm != term
      {
        if documents[k].searchTerm == term {
          return Some(k);
        }
        k := k + 1;
      }
      return None;
    }

    /** `updateSearchCount(term, movie)`. When the store fails (the query,
        the update or the create) the error is swallowed and the
        collection is as before; otherwise the first document for the term
        counts one more, or a new one is created. */
    method UpdateSearchCount(term: string, movie: MovieSummary, storeFails: bool)
      modifies this
      ensures storeFails ==> documents == old(documents) && nextId == old(nextId)
      ensures !storeFails ==> documents == Upserted(old(documents), term, movie, old(nextId))
      ensures nextId >= old(nextId)
    {
      if storeFails {
        return;
      }
      var found := FindTerm(term);
      assert found == FirstWithTerm(documents, term) by {
        var f := FirstWithTerm(documents, term);
        if found.Some? && f.Some? {
          assert !(found.value < f.value) && !(f.value < found.value);
        }
      }
      match found
      case Some(i) =>
        var doc := documents[i];
        documents := documents[i := doc.(count := doc.count + 1)];
      case None =>
        documents := documents + [NewDocument(nextId, term, movie)];
        nextId := nextId + 1;
    }

    /** `getTrendingMovies()`: the five most counted documents, highest
        first, or an empty list when the store fails. */
    method GetTrendingMovies(storeFails: bool) returns (top: seq<Document>)
      ensures storeFails ==> top == []
      ensures !storeFails ==> top == TopByCount(documents, TRENDING_LIMIT)
      ensures |top| <= TRENDING_LIMIT && ByCountDesc(top) && multiset(top) <= multiset(documents)
      ensures !storeFails ==> |top| == Min(TRENDING_LIMIT, |documents|)
      ensures !storeFails ==> forall d, t :: d in documents && d !in top && t in top ==> d.count <= t.count
    {
      if storeFails {
        return [];
      }
      TopByCountIsTop(documents, TRENDING_LIMIT);
      top := TopByCount(documents, TRENDING_LIMIT);
    }
  }
}

=== FILE: text.dfy ===
/** Text helpers shared by the whole model: decimal rendering of natural
    numbers (JavaScript's `String(n)` for a non-negative integer) with its
    parser, `padStart(2, '0')`, `split` on one character and `join`. */
module Text {
  import opened Wrappers

  predicate IsDigit(c: char) {
    '0' <= c <= '9'
  }

  predicate AllDigits(s: string) {
    forall i :: 0 <= i < |s| ==> IsDigit(s[i])
  }

  function DigitChar(d: nat): (c: char)
    requires d < 10
    ensures IsDigit(c) && c as int - '0' as int == d
  {
    ('0' as int + d) as char
  }

  function DigitValue(c: char): (d: nat)
    requires IsDigit(c)
    ensures d < 10 && DigitChar(d) == c
  {
    c as int - '0' as int
  }

  /** Decimal rendering of `n`: at least one digit, and no leading zero
      except for `0` itself. */
  function NatToString(n: nat): (s: string)
    ensures |s| >= 1 && AllDigits(s)
    ensures |s| == 1 <==> n < 10
    ensures s[0] == '0' <==> n == 0
  {
    if n < 10 then [DigitChar(n)] else NatToString(n / 10) + [DigitChar(n % 10)]
  }

  /** The number a string of decimal digits denotes (leading zeros allowed). */
  function DigitsValue(s: string): nat
    requires AllDigits(s)
  {
    if s == [] then 0 else DigitsValue(s[..|s| - 1]) * 10 + DigitValue(s[|s| - 1])
  }

  /** Reads a non-empty run of decimal digits; anything else is `None`. */
  function ParseNat(s: string): (r: Option<nat>)
    ensures r.Some? <==> |s| > 0 && AllDigits(s)
  {
    if |s| > 0 && AllDigits(s) then Some(DigitsValue(s)) else None
  }

  lemma {:induction false} DigitsValueSnoc(s: string, d: nat)
    requires AllDigits(s) && d < 10
    ensures AllDigits(s + [DigitChar(d)])
    ensures DigitsValue(s + [DigitChar(d)]) == DigitsValue(s) * 10 + d
  {
    var t := s + [DigitChar(d)];
    assert t[..|t| - 1] == s;
  }

  /** Reading back the rendering of `n` gives `n`. */
  lemma {:induction false} ParseNatToString(n: nat)
    ensures ParseNat(NatToString(n)) == Some(n)
    ensures DigitsValue(NatToString(n)) == n
  {
    if n < 10 {
      assert NatToString(n) == [] + [DigitChar(n)];
      DigitsValueSnoc([], n);
    } else {
      ParseNatToString(n / 10);
      DigitsValueSnoc(NatToString(n / 10), n % 10);
    }
  }

  /** A leading zero does not change the value of a run of digits. */
  lemma {:induction false} DigitsValueLeadingZero(s: string)
    requires AllDigits(s)
    ensures AllDigits("0" + s) && DigitsValue("0" + s) == DigitsValue(s)
    decreases |s|
  {
    if s != [] {
      var t := "0" + s;
      assert t[..|t| - 1] == "0" + s[..|s| - 1];
      DigitsValueLeadingZero(s[..|s| - 1]);
    }
  }

  lemma NatToStringInjective(a: nat, b: nat)
    requires NatToString(a) == NatToString(b)
    ensures a == b
  {
    ParseNatToString(a);
    ParseNatToString(b);
  }

  /** JavaScript's `s.padStart(2, '0')`: left-pads with zeros to two
      characters; a longer string is returned unchanged. */
  function PadStart2(s: string): (r: string)
    ensures |r| == if |s| < 2 then 2 else |s|
    ensures r[|r| - |s|..] == s
    ensures forall i :: 0 <= i < |r| - |s| ==> r[i] == '0'
  {
    if |s| == 0 then "00" else if |s| == 1 then "0" + s else s
  }

  /** Two-digit rendering of a number below 100 reads back as the number. */
  lemma PaddedReadsBack(n: nat)
    requires n < 100
    ensures |PadStart2(NatToString(n))| == 2
    ensures ParseNat(PadStart2(NatToString(n))) == Some(n)
  {
    ParseNatToString(n);
    if n < 10 {
      DigitsValueLeadingZero(NatToString(n));
    } else {
      assert NatToString(n) == NatToString(n / 10) + [DigitChar(n % 10)];
      assert |NatToString(n / 10)| == 1;
      assert PadStart2(NatToString(n)) == NatToString(n);
    }
  }

  /** JavaScript's `s.split(sep)` for a one-character separator: the
      pieces between the separators, in order (at least one piece). */
  function Split(s: string, sep: char): (parts: seq<string>)
    ensures |parts| >= 1
    ensures forall i :: 0 <= i < |parts| ==> sep !in parts[i]
  {
    if s == [] then [[]]
    else
      var rest := Split(s[1..], sep);
      if s[0] == sep then [[]] + rest else [[s[0]] + rest[0]] + rest[1..]
  }

  /** A text without the separator splits into itself. */
  lemma {:induction false} SplitNoSeparator(a: string, sep: char)
    requires sep !in a
    ensures Split(a, sep) == [a]
  {
    if a != [] {
      SplitNoSeparator(a[1..], sep);
      assert [a[0]] + a[1..] == a;
    }
  }

  /** Splitting stops at the first separator. */
  lemma {:induction false} SplitAtFirst(a: string, sep: char, b: string)
    requires sep !in a
    ensures Split(a + [sep] + b, sep) == [a] + Split(b, sep)
  {
    if a == [] {
      assert [sep] + b == a + [sep] + b;
      assert ([sep] + b)[1..] == b;
    } else {
      var s := a + [sep] + b;
      assert s[0] == a[0] && s[1..] == a[1..] + [sep] + b;
      SplitAtFirst(a[1..], sep, b);
      assert [a[0]] + a[1..] == a;
    }
  }

  /** The first piece is the longest prefix free of the separator. */
  lemma {:induction false} SplitFirstPiece(s: string, sep: char)
    ensures |Split(s, sep)[0]| <= |s|
    ensures Split(s, sep)[0] == s[..|Split(s, sep)[0]|]
    ensures |Split(s, sep)[0]| < |s| ==> s[|Split(s, sep)[0]|] == sep
  {
    if s != [] {
      SplitFirstPiece(s[1..], sep);
    }
  }

  /** JavaScript's `parts.join(sep)`: the empty text for no parts, the
      part itself for one. */
  function Join(parts: seq<string>, sep: string): (r: string)
    ensures |parts| == 0 ==> r == ""
    ensures |parts| == 1 ==> r == parts[0]
  {
    if |parts| == 0 then "" else if |parts| == 1 then parts[0] else parts[0] + sep + Join(parts[1..], sep)
  }

  /** Joining is compatible with concatenating lists of pieces. */
  lemma {:induction false} JoinAppend(a: seq<string>, b: seq<string>, sep: string)
    requires |a| >= 1 && |b| >= 1
    ensures Join(a + b, sep) == Join(a, sep) + sep + Join(b, sep)
  {
    if |a| == 1 {
      assert (a + b)[1..] == b;
    } else {
      assert (a + b)[1..] == a[1..] + b;
      JoinAppend(a[1..], b, sep);
    }
  }

  function TotalLength(parts: seq<string>): nat {
    if parts == [] then 0 else |parts[0]| + TotalLength(parts[1..])
  }

  /** The joined text holds every piece plus one separator between each
      two neighbours. */
  lemma {:induction false} JoinLength(parts: seq<string>, sep: string)
    requires |parts| >= 1
    ensures |Join(parts, sep)| == TotalLength(parts) + (|parts| - 1) * |sep|
  {
    if |parts| > 1 {
      JoinLength(parts[1..], sep);
    }
  }

  /** With a one-character separator that no piece contains, splitting
      undoes joining. */
  lemma {:induction false} SplitJoin(parts: seq<string>, sep: char)
    requires |parts| >= 1
    requires forall i :: 0 <= i < |parts| ==> sep !in parts[i]
    ensures Split(Join(parts, [sep]), sep) == parts
  {
    if |parts| == 1 {
      SplitNoSeparator(parts[0], sep);
    } else {
      SplitJoin(parts[1..], sep);
      SplitAtFirst(parts[0], sep, Join(parts[1..], [sep]));
      assert [parts[0]] + parts[1..] == parts;
    }
  }

  predicate StartsWith(s: string, prefix: string) {
    |prefix| <= |s| && s[..|prefix|] == prefix
  }

  lemma DigitsHaveNo(s: string, c: char)
    requires AllDigits(s) && !IsDigit(c)
    ensures c !in s
  {
  }
}

=== FILE: tmdb.dfy ===
/** The records the movie-metadata API returns, the two list endpoints,
    and the image-CDN URL rule every page shares. */
module Tmdb {
  import opened Wrappers
  import opened Text

  const API_BASE_URL: string := "https://api.themoviedb.org/3"
  const IMAGE_BASE_URL: string := "https://image.tmdb.org/t/p/w500"

  /** One entry of a list endpoint's `results` (the fields the core reads). */
  datatype MovieSummary = MovieSummary(
    id: nat,
    title: string,
    posterPath: Option<string>,
    releaseDate: Option<string>,
    voteAverage: Option<real>,
    originalLanguage: string)

  /** The JSON body of a list response: `Response`, `Error` and `results`
      are each optional. */
  datatype ListPayload = ListPayload(
    response: Option<string>,
    error: Option<string>,
    results: Option<seq<MovieSummary>>)

  /** What one list `fetch` (and its `json()`) comes to. */
  datatype ListResponse =
    | ListNotOk                    // an HTTP status outside 200-299
    | ListAborted                  // the request's AbortController fired
    | ListThrown(message: string)  // fetch or json() rejected otherwise
    | ListOk(payload: ListPayload)

  /** The list endpoint a query selects. The query goes into the URL
      through `encodeURIComponent`, kept opaque here as `encode`. */
  datatype Endpoint =
    | Search(query: string, sortBy: Option<string>)
    | Discover(order: string)

  function Url(e: Endpoint, encode: string -> string): (u: string)
    ensures e.Search? ==> StartsWith(u, API_BASE_URL + "/search/movie?query=" + encode(e.query))
    ensures e.Search? && e.sortBy.None? ==> u == API_BASE_URL + "/search/movie?query=" + encode(e.query)
    ensures e.Search? && e.sortBy.Some? ==>
      u[|API_BASE_URL + "/search/movie?query=" + encode(e.query)|..] == "&sort_by=" + e.sortBy.value
    ensures e.Discover? ==>
      StartsWith(u, API_BASE_URL + "/discover/movie?sort_by=")
      && u[|API_BASE_URL + "/discover/movie?sort_by="|..] == e.order
  {
    match e
    case Search(q, None) => API_BASE_URL + "/search/movie?query=" + encode(q)
    case Search(q, Some(order)) => API_BASE_URL + "/search/movie?query=" + encode(q) + "&sort_by=" + order
    case Discover(order) => API_BASE_URL + "/discover/movie?sort_by=" + order
  }

  /** JavaScript truthiness of an optional string: present and non-empty. */
  predicate Truthy(s: Option<string>) {
    s.Some? && s.value != ""
  }

  /** `path ? IMAGE_BASE_URL + path : fallback`. */
  function ImageSrc(path: Option<string>, fallback: string): (src: string)
    ensures Truthy(path) ==> StartsWith(src, IMAGE_BASE_URL) && src[|IMAGE_BASE_URL|..] == path.value
    ensures !Truthy(path) ==> src == fallback
  {
    if Truthy(path) then IMAGE_BASE_URL + path.value else fallback
  }

  /** A local fallback asset can never be mistaken for a CDN URL, so the
      image source tells whether a path was present and which one. */
  lemma ImageSrcRecoversPath(p: Option<string>, q: Option<string>, fallback: string)
    requires !StartsWith(fallback, IMAGE_BASE_URL)
    requires ImageSrc(p, fallback) == ImageSrc(q, fallback)
    ensures Truthy(p) <==> Truthy(q)
    ensures Truthy(p) ==> p.value == q.value
  {
    if Truthy(p) && Truthy(q) {
      assert p.value == ImageSrc(p, fallback)[|IMAGE_BASE_URL|..];
    }
  }
}

=== FILE: trailer.dfy ===
/** Locating a movie's official trailer in the provider's video list
    (`fetchTrailer` in the detail hook). */
module Trailer {
  import opened Wrappers
  import opened Text

  const WATCH_URL_PREFIX: string := "https://www.youtube.com/watch?v="
  const VIDEOS_ERROR: string := "Could not fetch TMDB videos"

  /** One entry of the videos endpoint's `results`; `kind` is its `type`. */
  datatype Video = Video(site: string, kind: string, name: string, key: string)

  /** The trailer attached to a movie as its `video` field. The two duration
      fields are set only when the player reported a duration. */
  datatype Trailer = Trailer(
    key: string,
    url: string,
    durationSeconds: Option<nat>,
    durationFormatted: Option<string>)

  /** What the videos request comes to. It carries no abort signal. */
  datatype VideosResponse =
    | VideosNotOk
    | VideosThrown(message: string)
    | VideosOk(results: seq<Video>)

  predicate IsOfficialTrailer(v: Video) {
    v.site == "YouTube" && v.kind == "Trailer" && v.name == "Official Trailer"
  }

  /** The position `results.find` stops at: the first official trailer. */
  function FirstOfficialTrailer(results: seq<Video>): (r: Option<nat>)
    ensures r.Some? ==> r.value < |results| && IsOfficialTrailer(results[r.value])
    ensures r.Some? ==> forall j :: 0 <= j < r.value ==> !IsOfficialTrailer(results[j])
    ensures r.None? ==> forall j :: 0 <= j < |results| ==> !IsOfficialTrailer(results[j])
  {
    if results == [] then None
    else if IsOfficialTrailer(results[0]) then Some(0)
    else
      var rest := FirstOfficialTrailer(results[1..]);
      if rest.Some? then Some(rest.value + 1) else None
  }

  /** The trailer of a video list: key and watch URL of the first official
      trailer, or none at all (which is not an error). */
  function SelectTrailer(results: seq<Video>): (t: Option<Trailer>)
    ensures t.None? <==> forall j :: 0 <= j < |results| ==> !IsOfficialTrailer(results[j])
    ensures t.Some? ==> (exists i :: 0 <= i < |results| && IsOfficialTrailer(results[i])
                           && (forall j :: 0 <= j < i ==> !IsOfficialTrailer(results[j]))
                           && t.value.key == results[i].key)
    ensures t.Some? ==> t.value.url == WATCH_URL_PREFIX + t.value.key
    ensures t.Some? ==> t.value.durationSeconds.None? && t.value.durationFormatted.None?
  {
    match FirstOfficialTrailer(results)
    case None => None
    case Some(i) => Some(Trailer(results[i].key, WATCH_URL_PREFIX + results[i].key, None, None))
  }

  /** The key can be read back off the watch URL. */
  lemma WatchUrlNamesKey(results: seq<Video>)
    requires SelectTrailer(results).Some?
    ensures var t := SelectTrailer(results).value;
      StartsWith(t.url, WATCH_URL_PREFIX) && t.url[|WATCH_URL_PREFIX|..] == t.key
  {
  }

  /** Only the first official trailer counts: anything after it, or any
      non-matching entry before it, leaves the choice unchanged. */
  lemma SelectionIgnoresOthers(before: seq<Video>, v: Video, after: seq<Video>)
    requires forall j :: 0 <= j < |before| ==> !IsOfficialTrailer(before[j])
    requires IsOfficialTrailer(v)
    ensures SelectTrailer(before + [v] + after) == Some(Trailer(v.key, WATCH_URL_PREFIX + v.key, None, None))
  {
    var s := before + [v] + after;
    assert s[|before|] == v;
    var i := FirstOfficialTrailer(s);
    assert i.Some?;
  }

  /** `fetchTrailer`: a non-ok response or a rejected request throws; an
      ok response yields the selected trailer, possibly none. */
  function FetchTrailer(response: VideosResponse): (r: Result<Option<Trailer>>)
    ensures response.VideosNotOk? ==> r == Err(VIDEOS_ERROR)
    ensures response.VideosThrown? ==> r == Err(response.message)
    ensures response.VideosOk? ==> r.Ok? && (r.value.Some? <==> exists j :: 0 <= j < |response.results| && IsOfficialTrailer(response.results[j]))
    ensures response.VideosOk? ==> r == Ok(SelectTrailer(response.results))
  {
    match response
    case VideosNotOk => Err(VIDEOS_ERROR)
    case VideosThrown(msg) => Err(msg)
    case VideosOk(results) => Ok(SelectTrailer(results))
  }
}

=== FILE: wrappers.dfy ===
/** The optional-value datatype the model uses for JavaScript's
    `null`/`undefined` (an absent field, a search with no hit), and the
    outcome of a step that may throw an `Error` with a message. */
module Wrappers {

  datatype Option<+T> = None | Some(value: T) {

    /** The value, or `default` when absent. */
    function GetOr(default: T): T {
      match this
      case Some(v) => v
      case None => default
    }
  }

  /** A value, or the `message` of the error thrown instead. */
  datatype Result<+R> = Ok(value: R) | Err(message: string)
}
